=== FILE: README.md ===
# Ticket adjudication engine — a Dafny model

This project models the core of a small event-ticketing server. It covers four things:
- how QR tickets are issued in batches under a hard cap;
- how each scan of a token is adjudicated against an append-only scan ledger;
- how a ticket is voided or reinstated;
- what the scanner page in the browser sends and shows.

The central promise is **at-most-once admission**. A ticket counts as "consumed" when the ledger holds a `valid` scan for it. That fact is derived from the ledger and never stored. A consumed ticket is never admitted again. Every scan attempt leaves exactly one record, whatever its outcome.

Each request handler is a pure transition from a `Store` (the `tickets` table, the `scans` table and a clock reading) to a new `Store` and a reply. The modules follow the program's files:

| module | file | what it holds |
|---|---|---|
| `Wrappers` | — | `Option`, `Min`, `Max` |
| `JsString` | — | JavaScript's `trim`, `slice`, `split`, `filter(Boolean)`, the global `parseInt` and `String(n)` |
| `SqlLike` | — | SQLite's `LIKE` with its defaults |
| `Schema` | `db/database.js` | the two tables, their defaults and constraints, and the store invariant `WellFormed` |
| `ScanRoute` | `routes/scan.js` | `POST /api/scan` |
| `AdminRoutes` | `routes/admin.js` | `POST /admin/generate`, `POST /admin/ticket/:token/void`, and the statistics, filter and pages of `GET /admin` |
| `ScannerClient` | `public/js/scanner.js` | token extraction, `showResult`, and the `isProcessing` guard |
| `Scenario` | — | end-to-end properties that combine the modules |

## How the model reads the code

- A blocked re-scan is stored as `invalid` and answered `used`: when an active ticket already has a `valid` scan, the attempt is stored with result `invalid` and the reply's `result` is `used`.
- A blocked re-scan stores `deviceInfo + ' [RE-SCAN BLOCKED]'` as its device info. When the request had no `User-Agent`, JavaScript's string concatenation turns the missing value into the text `null [RE-SCAN BLOCKED]`. `BlockedDeviceInfo` models this as written.
- A `used` reply's `firstScanned` is the stored `scanned_at` of the first valid scan, which SQLite's clock produced. A `valid` reply's `scannedAt` comes from the JavaScript clock instead. The model keeps two readings: the store's `clock`, which stamps records, and a separate `replyTime` parameter for the reply. So a second scan's `firstScanned` equals the first scan's stored time. It is not claimed to equal the first reply's `scannedAt`.
- The dashboard's search is `token LIKE q || '%'`, so `_` is a wildcard and ASCII letters compare without regard to case. A search for `ab` also lists `AB…` tokens. `LikePrefixPattern` states exactly which tokens match.
- `SUM(…)` over an empty `tickets` table is NULL, not 0. So the `vip`, `general` and `voided` statistics are `Option`s.
- `ORDER BY created_at DESC` leaves ties in an unspecified order. Tickets created within the same second share a `created_at` text, and a batch is inserted one row at a time, so a batch usually shares one creation time but may span two. The model breaks ties by listing the newest-inserted ticket first.
- `FormCount` follows `Math.max(0, parseInt(field) || 0)`. A missing field, NaN and negative numbers all give 0. `parseInt` skips leading white space, reads one sign and honours a `0x` prefix.
- Token generation (`nanoid(32)`) is a parameter `gen: nat -> string` whose k-th value is the k-th call's result. A token that clashes with a stored token, or with another token of the same batch, breaks the `UNIQUE` constraint. The transaction then rolls back as a whole, and the model reports this outcome as `IntegrityError`.

## Model

| member | source | states |
|---|---|---|
| JsString.Trim | routes/scan.js:21 | the result is no longer than the input and starts and ends with no white space |
| JsString.TrimOfPadded | routes/scan.js:21 | trimming a white-space-padded token whose ends are not white space gives back that token |
| JsString.TrimIdempotent | public/js/scanner.js:82 | trimming twice is trimming once |
| JsString.TrimEmptyIff | routes/scan.js:21-25 | a token trims to the empty string exactly when it is all white space, so such a token is never looked up |
| JsString.SliceTo | routes/scan.js:34 | `slice(0, 64)` keeps a prefix of length min(64, length) |
| JsString.IndexOf | public/js/scanner.js:86 | the first position of the separator, or None exactly when the separator does not occur |
| JsString.Split | public/js/scanner.js:86 | the pieces contain no separator and joined with it give back the input |
| JsString.SplitJoin | public/js/scanner.js:86 | splitting a join of separator-free pieces gives back those pieces |
| JsString.NonEmpty | public/js/scanner.js:86 | `filter(Boolean)` keeps exactly the non-empty pieces |
| JsString.NonEmptyAppend | public/js/scanner.js:86 | `filter(Boolean)` keeps order: filtering a concatenation concatenates the filtered parts |
| JsString.SplitAppend | public/js/scanner.js:86 | splitting `a/b` at `/` gives the pieces of `a` followed by the pieces of `b` |
| JsString.ParseInt | routes/admin.js:28 | `parseInt` gives NaN exactly when, after leading white space and one optional sign, no digit follows (a hex digit after `0x`/`0X`, a decimal digit otherwise); a negative result needs a leading `-` |
| JsString.DigitRun | routes/admin.js:65-66 | `parseInt` reads the longest prefix of digits of the radix |
| JsString.ParseIntToString | routes/admin.js:65-66 | the decimal text of every integer, negatives included, parses back to that integer |
| SqlLike.Like | routes/admin.js:33-36 | for a pattern without `%`, `LIKE` holds exactly when the text has the pattern's length and matches it position by position, with `_` as a wildcard and ASCII case ignored |
| SqlLike.LikePrefixPattern | routes/admin.js:33-36 | `token LIKE q%`, for a search text without `%`, holds exactly when the token is at least as long as `q` and each position of `q` is `_` or the same letter up to ASCII case |
| SqlLike.ExactPrefixMatches | routes/admin.js:33-36 | every token that starts with the search text is listed |
| SqlLike.TrailingPercentMatchesAll | routes/admin.js:35 | the pattern `%` matches every token |
| Schema.FindTicket | routes/scan.js:23-25 | the lookup by token finds the first ticket with that token, and finds nothing exactly when no ticket has it |
| Schema.FirstValidScan | routes/scan.js:47-49 | the earliest `scanned_at` among the ticket's `valid` scans; None exactly when the ticket is not consumed |
| Schema.ConsumedAppend | routes/scan.js:47-51 | appending one record consumes a ticket exactly when the record is a `valid` scan of it |
| Schema.EmptyStoreWellFormed | db/database.js:22-42 | the empty database satisfies every constraint of the two tables |
| Schema.AdvanceWellFormed | db/database.js:38 | time passing between requests keeps every constraint |
| Schema.CountValidZero | routes/scan.js:47-51 | a ticket has no `valid` record exactly when it is not consumed |
| Schema.AtMostOnce | routes/scan.js:46-66 | under the single-admission invariant a ticket has at most one `valid` record, and exactly one once consumed |
| ScanRoute.DeviceInfo | routes/scan.js:27 | a missing or empty `User-Agent` is recorded as NULL, and any other header is recorded as sent |
| ScanRoute.BlockedDeviceInfo | routes/scan.js:55 | the device info of a blocked re-scan is the header, or the text `null` when there is none, followed by ` [RE-SCAN BLOCKED]` |
| ScanRoute.Resolve | routes/scan.js:23-25 | a resolved token is non-empty and is the found ticket's token |
| ScanRoute.ResolveOwnToken | routes/scan.js:23-25 | with unique tokens, a ticket's own token resolves to that ticket |
| ScanRoute.Adjudicate | routes/scan.js:20-73 | the record is numbered next, is stamped with the store's clock and carries the operator; the reply is `valid` exactly when the record is, `voided` exactly when the record is, and `invalid` exactly when no ticket was resolved |
| ScanRoute.AdjudicateTicket | routes/scan.js:38-72 | a resolved ticket's record names that ticket and its token, and the reply is never `invalid`; a `voided` or `valid` record stores the device info as received, and a blocked re-scan stores it with the ` [RE-SCAN BLOCKED]` marker |
| ScanRoute.AdjudicateResolved | routes/scan.js:23-44 | a request whose token names a ticket is decided on that ticket alone |
| ScanRoute.Scan | routes/scan.js:20-73 | exactly one record is appended, every earlier record and every ticket stays, the operator defaults to `admin`, and the reply agrees with the appended record's result |
| ScanRoute.ScanUnresolved | routes/scan.js:30-36 | an unknown token is logged with NULL ticket id, result `invalid` and its first 64 characters, and the reply is a bare `invalid` |
| ScanRoute.ScanBlankToken | routes/scan.js:21-36 | a missing or all-blank token is `invalid` whatever the store holds, and is logged as the empty string |
| ScanRoute.UnresolvedRepliesAgree | routes/scan.js:31-35 | all unknown tokens get the same reply, with no ticket type in it |
| ScanRoute.ScanVoidedTicket | routes/scan.js:38-44 | a voided ticket's scan is logged `voided` with the request's device info, and the reply is `voided` with the ticket's type |
| ScanRoute.ScanBlockedRescan | routes/scan.js:46-61 | a consumed active ticket's scan is logged `invalid` with the device marked as blocked, and the reply is `used` with the earliest valid scan's time |
| ScanRoute.ScanFirstAdmission | routes/scan.js:63-72 | an active, unconsumed ticket's scan is logged `valid` with the request's device info, the reply is `valid` with its type, and the ticket is consumed afterwards |
| ScanRoute.AdjudicatedRecordFits | routes/scan.js:30-66 | every appended record references an existing ticket with that ticket's token, or is an `invalid` attempt of at most 64 characters; a `valid` record is only written for an unconsumed ticket |
| ScanRoute.ScanPreservesWellFormed | routes/scan.js:20-73 | a scan keeps every constraint of the store, single admission included |
| ScanRoute.ScanLeavesOtherTickets | routes/scan.js:47-49 | scanning one ticket never consumes another |
| ScanRoute.RescanAfterAdmission | routes/scan.js:46-72 | right after an admission, a second scan of the same token is `used`, and its `firstScanned` is the admission's stored time |
| ScanRoute.AuditTrailComplete | routes/scan.js:30-66 | a run of n scans appends exactly n records and keeps every earlier record and every ticket |
| ScanRoute.RunScansWellFormed | routes/scan.js:20-73 | every run of scans keeps the store well formed |
| ScanRoute.AtMostOnceAdmission | routes/scan.js:46-66 | after any run of scans each ticket has at most one `valid` record |
| AdminRoutes.FormCount | routes/admin.js:65-66 | a missing field or text `parseInt` cannot read gives 0; the count is positive exactly when the field parses to a positive integer, and is then that integer |
| AdminRoutes.FormCountReadsInteger | routes/admin.js:65-66 | a count typed as an integer is read as that integer, with negatives clamped to 0 |
| AdminRoutes.Issue | routes/admin.js:61-86 | `err=zero` exactly when nothing is requested; `err=limit` exactly when the cap of 200 would be passed, reporting how many can still be made; a token clash fails the whole batch; every outcome except success leaves the store as it was; the cap is never passed |
| AdminRoutes.Generate | routes/admin.js:61-86 | the form's counts decide the outcome, and a success adds exactly the requested number of tickets |
| AdminRoutes.Location | routes/admin.js:70-85 | every outcome but a failed insert redirects, and the `can` value of a limit redirect reads back as the number of tickets that can still be made |
| AdminRoutes.LocationDeterminesOutcome | routes/admin.js:70-85 | two outcomes with the same redirect are the same outcome, so the dashboard can tell them apart |
| AdminRoutes.IssueAppends | routes/admin.js:77-84 | a success appends `vip` VIP tickets and then `general` General tickets, all active, carrying the generator's tokens in call order, and leaves earlier tickets alone |
| AdminRoutes.IssuePreservesWellFormed | routes/admin.js:77-84 | issuance keeps unique tokens, consecutive ids, ordered creation times and every scan reference |
| AdminRoutes.Toggled | routes/admin.js:121 | the new status always differs from the old |
| AdminRoutes.ToggleVoid | routes/admin.js:117-125 | an unknown token is 404 and changes nothing; otherwise exactly the ticket with that token flips status, the scans are untouched, and the reply redirects to its detail page |
| AdminRoutes.ToggleTwiceRestores | routes/admin.js:121-122 | voiding and then unvoiding (or the reverse) gives back the store it started from |
| AdminRoutes.TogglePreservesWellFormed | routes/admin.js:117-125 | toggling keeps every constraint of the store |
| AdminRoutes.CountType | routes/admin.js:19-21 | a type column never exceeds the number of tickets |
| AdminRoutes.CountStatus | routes/admin.js:22 | the voided column never exceeds the number of tickets |
| AdminRoutes.CountTypeExtremes | routes/admin.js:19-21 | a type column is 0 exactly when no ticket has the type, and equals the ticket count exactly when every ticket has it |
| AdminRoutes.CountStatusExtremes | routes/admin.js:22 | the voided column is 0 exactly when no ticket is voided, and equals the ticket count exactly when every ticket is |
| AdminRoutes.CountsPartition | routes/admin.js:19-22 | the VIP and General counts add up to the total, and the voided count is at most the total |
| AdminRoutes.CountTypeAppend | routes/admin.js:20-21 | type counts add over concatenation |
| AdminRoutes.CountTypeBatch | routes/admin.js:80-81 | a batch holds exactly `vip` VIP and the rest General tickets |
| AdminRoutes.DashboardStats | routes/admin.js:17-24 | the statistics are NULL exactly when there are no tickets; otherwise the VIP and General counts add up to the total, which is at least the voided count |
| AdminRoutes.IssueStats | routes/admin.js:17-24 | after a successful issuance the statistics show the total and the VIP and General counts raised by exactly the requested numbers, with the voided count unchanged |
| AdminRoutes.StatsOfAppend | routes/admin.js:17-24 | appending active tickets adds their type counts to the statistics and leaves the voided count |
| AdminRoutes.CountTypeOfStatusChange | routes/admin.js:19-21 | changing one ticket's status keeps both type columns |
| AdminRoutes.CountsOfStatusChange | routes/admin.js:22 | changing one ticket's status moves the voided column by that ticket alone |
| AdminRoutes.ToggleStats | routes/admin.js:117-125 | voiding an active ticket raises the voided column by one and reinstating a voided one lowers it by one; the total, VIP and General columns stay |
| AdminRoutes.Offset | routes/admin.js:28 | the offset is a multiple of 50, zero for a page of 1 or below |
| AdminRoutes.TotalPages | routes/admin.js:52 | the fewest pages of 50 that hold every matching row |
| AdminRoutes.Filter | routes/admin.js:30-40 | exactly the tickets the search text and the type filter select |
| AdminRoutes.FilterNothing | routes/admin.js:33-40 | with no search text and no known type, every ticket is listed |
| AdminRoutes.Reverse | routes/admin.js:43 | the reversed listing holds the same tickets |
| AdminRoutes.ReverseIndex | routes/admin.js:43 | position i of the reversal is the i-th ticket from the end |
| AdminRoutes.Page | routes/admin.js:43 | a page holds at most 50 rows, all of them matches |
| AdminRoutes.Dashboard | routes/admin.js:26-56 | a NaN page gives no listing; otherwise the listing reports the requested page, the number of matching tickets and the fewest pages of 50 that hold them all, and its rows are that page of the newest-first matches, at most 50 selected tickets |
| AdminRoutes.SelectedListedOnce | routes/admin.js:27-52 | every ticket the search selects is listed on exactly one page, and that page lies between 1 and the last page |
| AdminRoutes.EveryMatchOnItsPage | routes/admin.js:27-43 | the k-th newest match is row k mod 50 of page k div 50 + 1 and appears on no other page |
| AdminRoutes.PageEmptyIff | routes/admin.js:28-52 | a page is empty exactly when it lies past the last page |
| AdminRoutes.FilterAscending | routes/admin.js:30-43 | filtering keeps creation-time order |
| AdminRoutes.NewestFirstOrdered | routes/admin.js:43 | over the whole listing, every match is at least as new as every match after it |
| AdminRoutes.ListingNewestFirst | routes/admin.js:43 | in a well-formed store every page is ordered newest first |
| AdminRoutes.EarlierPagesNewer | routes/admin.js:43 | every ticket on an earlier page is at least as new as every ticket on a later page |
| ScannerClient.PathSegments | public/js/scanner.js:86 | the segments are non-empty and contain no `/` |
| ScannerClient.PathSegmentsOfPiece | public/js/scanner.js:86 | a piece with no `/` is one segment, or none when it is empty |
| ScannerClient.PathSegmentsAppend | public/js/scanner.js:86 | the segments of `a/b` are those of `a` followed by those of `b` |
| ScannerClient.ExtractToken | public/js/scanner.js:81-92 | a path whose first two segments are `t` and a token sends that token; any other path, or text that is not a URL, sends the trimmed text |
| ScannerClient.ExtractFromTicketPath | public/js/scanner.js:84-89 | a `/t/<token>` link, with or without further segments after the token, is read back as its token |
| ScannerClient.ExtractFromPlainText | public/js/scanner.js:82-92 | text that is not a URL is sent trimmed |
| ScannerClient.ExtractFromOtherPath | public/js/scanner.js:86-89 | a URL whose path is not `/t/<token>` sends the trimmed text |
| ScannerClient.ShowResult | public/js/scanner.js:22-56 | VALID exactly for `valid`, VOIDED exactly for `voided`, INVALID with no type line for everything else |
| ScannerClient.UsedShowsInvalid | public/js/scanner.js:48-56 | the server's `used` reply is shown as INVALID |
| ScannerClient.OnDecode | public/js/scanner.js:74-76 | a decode while processing is ignored; otherwise processing starts and the extracted token is sent |
| ScannerClient.OnFetchDone | public/js/scanner.js:102-117 | a 401 leaves for the login page with no card; every other end shows a card, and a parsed reply shows exactly `showResult(data)`; processing stays set |
| ScannerClient.FailuresShowInvalid | public/js/scanner.js:107-117 | a rate-limited, unparsable or failed request shows INVALID |
| ScannerClient.Dismiss | public/js/scanner.js:67-71 | dismissing hides the card and accepts the next scan |
| ScannerClient.OneRequestUntilDismissed | public/js/scanner.js:67-76 | until a dismissal at most one token is sent, and none while a scan is processing |
| ScannerClient.GuardStepAsWritten | public/js/scanner.js:67-71 | a tap hides the card and clears `isProcessing`, but leaves the auto-dismiss timer as it was |
| ScannerClient.GuardStep | public/js/scanner.js:58-71 | with `dismissResult` clearing the timer, a tap hides the card, clears `isProcessing` and leaves no timer pending |
| ScannerClient.ReplayKeepsOneInFlight | public/js/scanner.js:74-76 | with the timer cleared on dismissal, no sequence of decodes, responses, taps and timer firings has two requests in flight |
| ScannerClient.StaleTimerSecondRequest | public/js/scanner.js:58-71 | as written, decode, respond, tap, decode, timer fires, decode leaves two requests in flight; with the timer cleared it leaves one |
| Scenario.CardOfReply | public/js/scanner.js:28-56 | the card for each reply, with `<type> Ticket` only on VALID and VOIDED |
| Scenario.CardFollowsLedger | public/js/scanner.js:113-114 | once the fetch handler shows the server's reply, the operator sees VALID exactly when the ledger records `valid`, VOIDED exactly when it records `voided`, INVALID exactly when it records `invalid` |
| Scenario.GeneratedTokenShape | utils/token.js:10-12 | a generated token survives trimming and contains no `/` |
| Scenario.TicketLinkRequest | public/js/scanner.js:81-92 | the token the client reads from a ticket link is the ticket's own token after the server trims it |
| Scenario.TicketLinkAdmitsOnce | routes/scan.js:46-72 | scanning an unconsumed ticket's QR link shows VALID with its type; scanning it again shows INVALID, and the reply is `used` with the first scan's stored time |
| Scenario.IssueOneOfEach | routes/admin.js:61-86 | a form asking for one VIP and one General ticket creates exactly those two tickets in a well-formed store |
| Scenario.FirstTwoScans | routes/scan.js:46-72 | in that store the VIP ticket is admitted, then refused as used, and the General ticket stays unconsumed |
| Scenario.VoidThenScan | routes/admin.js:117-125 | voiding an active ticket makes its next scan `voided` and adds no `valid` record for it |
| Scenario.IssueScanVoidWalkthrough | routes/scan.js:38-72 | issue one of each type, scan the VIP ticket twice, void the General ticket and scan it: `valid`, `used`, `voided`, and the General ticket has no `valid` record |
| Scenario.ServePreserves | server.js:45-48 | each scan, generate form, toggle or passage of time keeps every table constraint and the cap of 200 tickets |
| Scenario.ServeAllPreserves | server.js:45-48 | any interleaving of those requests keeps every table constraint and the cap |
| Scenario.AdmittedAtMostOnce | routes/scan.js:46-66 | starting from an empty database, no interleaving of requests leaves two `valid` records for one ticket |

## Left out

- Authentication, the JWT session, `requireAuth` and the login pages are not modelled. The operator name is an input, and `admin` is used when there is none.
- Rate limiting (`express-rate-limit`) is left out because it depends on wall-clock windows. The client's handling of a 429 is modelled.
- The ticket detail page (`GET /admin/ticket/:token`), QR image rendering and the EJS views are presentation only, so they are left out.
- `nanoid` randomness is not modelled: the generated tokens are the parameter `gen`. `Scenario.IsGeneratedToken` states the 32-character URL-safe shape that the end-to-end lemmas assume.
- The clock does not advance within one request: the model stamps every ticket of a batch with one reading, where SQLite evaluates `datetime('now')` for each insert and a batch may span two seconds.
- Timestamps are natural numbers, not `datetime('now')` text or ISO strings. The model keeps no sub-second precision or formatting.
- JavaScript strings are UTF-16 code units and Dafny's `char` is a Unicode scalar value. Surrogate pairs are not modelled.
- ScannerClient.ExtractToken: takes the pathname that `new URL(text)` would parse as an input, and None when the constructor throws. The URL parser itself, with its percent-decoding and normalisation, is left out.
- JsString.IntToString: writes every integer in plain decimal, where JavaScript's `String` switches to exponent notation from 1e21 up, which `parseInt` would read back as its leading digit. Such counts are far beyond the cap of 200.
- JsString.ParseInt: does not model `-0`, or the loss of precision for digit runs past 2^53. Both are outside what the counts and page numbers use.
- AdminRoutes.Dashboard: returns None when `page` parses as NaN. What the SQLite driver does with a NaN offset is left out. The `err`, `can` and `success` query fields are passed to the view unchanged and are left out.
- A request body whose `token` is a non-string truthy value makes `.trim()` throw. The model takes the token as text.
- The `scanCount`/`lastScan` text of the VALID card never has server data, because the server sends neither field. The card's meta text, icons and colours are left out. In the client's event model the four-second timer is an ordinary `Dismissed` event. The separate guard model (`GuardState`) tracks the pending timer, but it covers neither the 401 redirect nor real durations: a timer may fire at any point after it is armed.
- The camera, vibration and the `html5-qrcode` start-up are left out.
- Concurrency is left out: each handler runs to completion on a synchronous database connection, so requests are modelled as a sequence of transitions (`Scenario.ServeAll`).
- Storage failures other than the `UNIQUE` clash during issuance are not modelled.

## Findings

| source | as written | input that shows it | evidently intended | confidence | as-written member | corrected member |
|---|---|---|---|---|---|---|
| public/js/scanner.js:67-71 | `dismissResult` hides the card and clears `isProcessing` but does not clear the auto-dismiss timer armed at line 64 | scan and get a card; tap it away; scan a second ticket; the first card's timer fires while the second request is pending and clears `isProcessing`; a third scan sends a second concurrent request | dismissing also clears the pending timer, so `isProcessing` is only cleared for the card on screen | medium; not executed | ScannerClient.StaleTimerSecondRequest | ScannerClient.ReplayKeepsOneInFlight |

=== FILE: admin_routes.dfy ===
/**
 * The admin handlers: batch issuance under a hard cap (`POST /admin/generate`),
 * the void/unvoid toggle (`POST /admin/ticket/:token/void`), and the dashboard's
 * statistics, filter and pagination (`GET /admin`).
 */
module AdminRoutes {
  import opened Wrappers
  import opened JsString
  import opened SqlLike
  import opened Schema

  /** The most tickets the store may ever hold. */
  const MaxTickets: nat := 200

  /** Rows per dashboard page. */
  const PageSize: nat := 50

  predicate WithinCap(st: Store)
  {
    |st.tickets| <= MaxTickets
  }

  // ----- Issuance -----

  /** The form fields `vipCount` and `generalCount`; None when the field is missing. */
  datatype GenerateForm = GenerateForm(vipCount: Option<string>, generalCount: Option<string>)

  /** `err=zero`, `err=limit&can=N`, `success=1`, or a failed insert (a server error). */
  datatype GenerateOutcome = ErrZero | ErrLimit(can: int) | Created | IntegrityError

  datatype GenerateStep = GenerateStep(store: Store, outcome: GenerateOutcome)

  /**
   * `Math.max(0, parseInt(field) || 0)`: NaN and zero become 0, negatives are
   * clamped to 0. A missing field is `undefined`, which parses as NaN.
   */
  function FormCount(field: Option<string>): (n: nat)
    ensures field.None? || ParseInt(field.value).None? ==> n == 0
    ensures n > 0 <==> field.Some? && ParseInt(field.value).Some? && ParseInt(field.value).value > 0
    ensures n > 0 ==> field.Some? && ParseInt(field.value) == Some(n)
  {
    match field
    case None => 0
    case Some(s) =>
      match ParseInt(s)
      case None => 0
      case Some(v) => var c := Max(0, v); c as nat
  }

  /** A count typed as an integer is read as that integer, clamped at zero. */
  lemma FormCountReadsInteger(i: int)
    ensures FormCount(Some(IntToString(i))) == Max(0, i)
  {
    ParseIntToString(i);
  }

  function Requested(form: GenerateForm): nat
  {
    FormCount(form.vipCount) + FormCount(form.generalCount)
  }

  /** The query string `/admin?err=limit&can=` starts the `can` value at. */
  const LimitPrefix: string := "/admin?err=limit&can="

  /** The redirect each outcome answers with; a failed insert answers with no redirect. */
  function Location(o: GenerateOutcome): (r: Option<string>)
    ensures r.None? <==> o == IntegrityError
    ensures o.ErrLimit? ==> |r.value| > |LimitPrefix| && ParseInt(r.value[|LimitPrefix|..]) == Some(o.can)
  {
    match o
    case ErrZero => Some("/admin?err=zero")
    case ErrLimit(can) =>
      ParseIntToString(can);
      assert (LimitPrefix + IntToString(can))[|LimitPrefix|..] == IntToString(can);
      Some(LimitPrefix + IntToString(can))
    case Created => Some("/admin?success=1")
    case IntegrityError => None
  }

  /** The dashboard tells every outcome apart by the redirect it receives. */
  lemma LocationDeterminesOutcome(o1: GenerateOutcome, o2: GenerateOutcome)
    requires Location(o1) == Location(o2)
    ensures o1 == o2
  {
    if o1.ErrLimit? && o2.ErrLimit? {
      var l1, l2 := Location(o1).value, Location(o2).value;
      assert l1[|LimitPrefix|..] == l2[|LimitPrefix|..];
    }
  }

  /** The tokens of the first `n` calls to the token generator. */
  function BatchTokens(gen: nat -> string, n: nat): (tokens: seq<string>)
    ensures |tokens| == n
    ensures forall k :: 0 <= k < n ==> tokens[k] == gen(k)
  {
    seq(n, k requires 0 <= k < n => gen(k))
  }

  /** The `UNIQUE` constraint lets every insert of the batch through. */
  predicate FreshTokens(tickets: seq<Ticket>, tokens: seq<string>)
  {
    && (forall a, b :: 0 <= a < b < |tokens| ==> tokens[a] != tokens[b])
    && (forall a, i :: 0 <= a < |tokens| && 0 <= i < |tickets| ==> tokens[a] != tickets[i].token)
  }

  /** The rows the transaction inserts: the first `vip` are VIP, the rest General. */
  function Batch(firstId: nat, tokens: seq<string>, vip: nat, now: nat): (b: seq<Ticket>)
    ensures |b| == |tokens|
    ensures forall k :: 0 <= k < |b| ==>
      && b[k].id == firstId + k && b[k].token == tokens[k] && b[k].createdAt == now
      && b[k].status == Active && b[k].ticketType == (if k < vip then VIP else General)
  {
    seq(|tokens|, k requires 0 <= k < |tokens| =>
      NewTicket(firstId + k, tokens[k], if k < vip then VIP else General, now))
  }

  /**
   * The handler once the two counts are read. `gen(k)` is what the k-th call of
   * the token generator returns; a token that clashes with a stored one or with
   * another of the batch makes the transaction fail as a whole.
   */
  function Issue(st: Store, vip: nat, general: nat, gen: nat -> string): (r: GenerateStep)
    ensures r.store.scans == st.scans && r.store.clock == st.clock
    ensures r.outcome != Created ==> r.store == st
    ensures r.outcome == ErrZero <==> vip + general == 0
    ensures r.outcome.ErrLimit? <==> vip + general > 0 && |st.tickets| + vip + general > MaxTickets
    ensures r.outcome.ErrLimit? ==> r.outcome.can == MaxTickets - |st.tickets|
    ensures r.outcome == IntegrityError <==>
      && vip + general > 0 && |st.tickets| + vip + general <= MaxTickets
      && !FreshTokens(st.tickets, BatchTokens(gen, vip + general))
    ensures r.outcome == Created ==> |r.store.tickets| == |st.tickets| + vip + general
    ensures WithinCap(st) ==> WithinCap(r.store)
  {
    var existing := |st.tickets|;
    var total := vip + general;
    if total == 0 then GenerateStep(st, ErrZero)
    else if existing + total > MaxTickets then GenerateStep(st, ErrLimit(MaxTickets - existing))
    else
      var tokens := BatchTokens(gen, total);
      if !FreshTokens(st.tickets, tokens) then GenerateStep(st, IntegrityError)
      else
        GenerateStep(st.(tickets := st.tickets + Batch(existing + 1, tokens, vip, st.clock)), Created)
  }

  /** `POST /admin/generate`: reads both counts from the form, then issues. */
  function Generate(st: Store, form: GenerateForm, gen: nat -> string): (r: GenerateStep)
    ensures r.outcome == ErrZero <==> Requested(form) == 0
    ensures r.outcome == Created ==> |r.store.tickets| == |st.tickets| + Requested(form)
  {
    Issue(st, FormCount(form.vipCount), FormCount(form.generalCount), gen)
  }

  lemma IssuedTokens(st: Store, vip: nat, general: nat, gen: nat -> string)
    requires Issue(st, vip, general, gen).outcome == Created
    ensures Issue(st, vip, general, gen).store.tickets
            == st.tickets + Batch(|st.tickets| + 1, BatchTokens(gen, vip + general), vip, st.clock)
  {
  }

  /**
   * A successful issuance appends exactly `vip` VIP tickets and then `general`
   * General tickets, all active, carrying the generator's tokens in call order,
   * and leaves every earlier ticket as it was.
   */
  lemma IssueAppends(st: Store, vip: nat, general: nat, gen: nat -> string)
    requires Issue(st, vip, general, gen).outcome == Created
    ensures var t := Issue(st, vip, general, gen).store.tickets;
      && |t| == |st.tickets| + vip + general
      && t[..|st.tickets|] == st.tickets
      && forall k :: |st.tickets| <= k < |t| ==>
           && t[k].token == gen(k - |st.tickets|)
           && t[k].status == Active
           && t[k].createdAt == st.clock
           && t[k].ticketType == (if k < |st.tickets| + vip then VIP else General)
  {
    IssuedTokens(st, vip, general, gen);
    var b := Batch(|st.tickets| + 1, BatchTokens(gen, vip + general), vip, st.clock);
    assert (st.tickets + b)[..|st.tickets|] == st.tickets;
  }

  /** Issuance keeps every constraint of the store. */
  lemma IssuePreservesWellFormed(st: Store, vip: nat, general: nat, gen: nat -> string)
    requires WellFormed(st)
    ensures WellFormed(Issue(st, vip, general, gen).store)
  {
    if Issue(st, vip, general, gen).outcome == Created {
      var tokens := BatchTokens(gen, vip + general);
      IssuedTokens(st, vip, general, gen);
      BatchKeepsTickets(st, Batch(|st.tickets| + 1, tokens, vip, st.clock), tokens);
    }
  }

  lemma BatchKeepsTickets(st: Store, b: seq<Ticket>, tokens: seq<string>)
    requires WellFormed(st)
    requires FreshTokens(st.tickets, tokens)
    requires |b| == |tokens|
    requires forall k :: 0 <= k < |b| ==>
      b[k].token == tokens[k] && b[k].id == |st.tickets| + 1 + k && b[k].createdAt == st.clock
    ensures WellFormed(st.(tickets := st.tickets + b))
  {
    var t := st.tickets + b;
    var n := |st.tickets|;
    assert forall k :: 0 <= k < n ==> t[k] == st.tickets[k];
    assert forall k :: n <= k < |t| ==> t[k] == b[k - n];
    assert TicketIds(t);
    assert UniqueTokens(t) by {
      forall i, j | 0 <= i < j < |t| ensures t[i].token != t[j].token {
        if i >= n {
          assert t[i].token == tokens[i - n] && t[j].token == tokens[j - n];
        } else if j >= n {
          assert t[j].token == tokens[j - n];
        }
      }
    }
    assert TicketTimes(t, st.clock);
    assert ScanRefs(t, st.scans) by {
      forall k | 0 <= k < |st.scans| && st.scans[k].ticketId.Some?
        ensures st.scans[k].rawToken == t[st.scans[k].ticketId.value - 1].token
      {
      }
    }
  }

  // ----- Void / unvoid -----

  datatype ToggleReply = NotFound | RedirectTo(location: string)

  datatype ToggleStep = ToggleStep(store: Store, reply: ToggleReply)

  /** `ticket.status === 'active' ? 'voided' : 'active'`. */
  function Toggled(s: Status): (r: Status)
    ensures r != s
  {
    if s == Active then Status.Voided else Active
  }

  /** `UPDATE tickets SET status = ? WHERE token = ?`: every row with that token gets the status. */
  function SetStatusWhere(tickets: seq<Ticket>, token: string, status: Status): (r: seq<Ticket>)
    ensures |r| == |tickets|
  {
    seq(|tickets|, i requires 0 <= i < |tickets| =>
      if tickets[i].token == token then tickets[i].(status := status) else tickets[i])
  }

  /**
   * The handler: an unknown token is 404 and nothing changes; otherwise the
   * ticket's status flips and the reply redirects to its detail page.
   */
  function ToggleVoid(st: Store, token: string): (r: ToggleStep)
    ensures r.store.scans == st.scans && r.store.clock == st.clock
    ensures |r.store.tickets| == |st.tickets|
    ensures r.reply == NotFound <==> forall i :: 0 <= i < |st.tickets| ==> st.tickets[i].token != token
    ensures r.reply == NotFound ==> r.store == st
    ensures r.reply != NotFound ==> r.reply == RedirectTo("/admin/ticket/" + token)
    ensures UniqueTokens(st.tickets) ==>
      forall i :: 0 <= i < |st.tickets| ==>
        r.store.tickets[i] == if st.tickets[i].token == token
                              then st.tickets[i].(status := Toggled(st.tickets[i].status))
                              else st.tickets[i]
  {
    match FindTicket(st.tickets, token)
    case None => ToggleStep(st, NotFound)
    case Some(i) =>
      var ticket := st.tickets[i];
      var tickets := SetStatusWhere(st.tickets, ticket.token, Toggled(ticket.status));
      ToggleStep(st.(tickets := tickets), RedirectTo("/admin/ticket/" + ticket.token))
  }

  /** Toggling twice gives back the store it started from. */
  lemma ToggleTwiceRestores(st: Store, token: string)
    requires UniqueTokens(st.tickets)
    ensures ToggleVoid(ToggleVoid(st, token).store, token).store == st
  {
    var s1 := ToggleVoid(st, token).store;
    assert forall i :: 0 <= i < |st.tickets| ==> s1.tickets[i].token == st.tickets[i].token;
    assert UniqueTokens(s1.tickets);
    var s2 := ToggleVoid(s1, token).store;
    assert s2.tickets == st.tickets;
  }

  /** Toggling keeps every constraint of the store: tokens, ids and times are untouched. */
  lemma TogglePreservesWellFormed(st: Store, token: string)
    requires WellFormed(st)
    ensures WellFormed(ToggleVoid(st, token).store)
  {
    var t := ToggleVoid(st, token).store.tickets;
    assert forall i :: 0 <= i < |t| ==>
      t[i].token == st.tickets[i].token && t[i].id == st.tickets[i].id && t[i].createdAt == st.tickets[i].createdAt;
  }

  // ----- Dashboard statistics -----

  /** `SUM(CASE WHEN type = ? THEN 1 ELSE 0 END)` over a non-empty table. */
  function CountType(tickets: seq<Ticket>, ty: TicketType): (n: nat)
    ensures n <= |tickets|
  {
    if |tickets| == 0 then 0
    else CountType(tickets[..|tickets| - 1], ty) + (if tickets[|tickets| - 1].ticketType == ty then 1 else 0)
  }

  /** `SUM(CASE WHEN status = ? THEN 1 ELSE 0 END)` over a non-empty table. */
  function CountStatus(tickets: seq<Ticket>, s: Status): (n: nat)
    ensures n <= |tickets|
  {
    if |tickets| == 0 then 0
    else CountStatus(tickets[..|tickets| - 1], s) + (if tickets[|tickets| - 1].status == s then 1 else 0)
  }

  /** A type column is 0 exactly when no row has the type, and equals the row count exactly when every row does. */
  lemma {:induction false} CountTypeExtremes(tickets: seq<Ticket>, ty: TicketType)
    ensures CountType(tickets, ty) == 0 <==> forall k :: 0 <= k < |tickets| ==> tickets[k].ticketType != ty
    ensures CountType(tickets, ty) == |tickets| <==> forall k :: 0 <= k < |tickets| ==> tickets[k].ticketType == ty
    decreases |tickets|
  {
    if |tickets| > 0 {
      var init := tickets[..|tickets| - 1];
      CountTypeExtremes(init, ty);
      assert forall k :: 0 <= k < |init| ==> init[k] == tickets[k];
    }
  }

  /** A status column is 0 exactly when no row has the status, and equals the row count exactly when every row does. */
  lemma {:induction false} CountStatusExtremes(tickets: seq<Ticket>, s: Status)
    ensures CountStatus(tickets, s) == 0 <==> forall k :: 0 <= k < |tickets| ==> tickets[k].status != s
    ensures CountStatus(tickets, s) == |tickets| <==> forall k :: 0 <= k < |tickets| ==> tickets[k].status == s
    decreases |tickets|
  {
    if |tickets| > 0 {
      var init := tickets[..|tickets| - 1];
      CountStatusExtremes(init, s);
      assert forall k :: 0 <= k < |init| ==> init[k] == tickets[k];
    }
  }

  lemma {:induction false} CountsPartition(tickets: seq<Ticket>)
    ensures CountType(tickets, VIP) + CountType(tickets, General) == |tickets|
    ensures CountStatus(tickets, Status.Voided) <= |tickets|
    decreases |tickets|
  {
    if |tickets| > 0 {
      CountsPartition(tickets[..|tickets| - 1]);
    }
  }

  lemma {:induction false} CountTypeAppend(a: seq<Ticket>, b: seq<Ticket>, ty: TicketType)
    ensures CountType(a + b, ty) == CountType(a, ty) + CountType(b, ty)
    decreases |b|
  {
    if |b| > 0 {
      assert (a + b)[..|a + b| - 1] == a + b[..|b| - 1];
      CountTypeAppend(a, b[..|b| - 1], ty);
    } else {
      assert a + b == a;
    }
  }

  /** Tickets that are VIP below position `vip` and General from there on hold `vip` VIP tickets. */
  lemma {:induction false} CountTypeSplit(b: seq<Ticket>, vip: nat)
    requires vip <= |b|
    requires forall k :: 0 <= k < |b| ==> b[k].ticketType == (if k < vip then VIP else General)
    ensures CountType(b, VIP) == vip && CountType(b, General) == |b| - vip
    decreases |b|
  {
    if |b| > 0 {
      var n := |b| - 1;
      var init := b[..n];
      assert forall k :: 0 <= k < n ==> init[k] == b[k];
      CountTypeSplit(init, if vip == |b| then n else vip);
    }
  }

  lemma CountTypeBatch(firstId: nat, tokens: seq<string>, vip: nat, now: nat)
    requires vip <= |tokens|
    ensures CountType(Batch(firstId, tokens, vip, now), VIP) == vip
    ensures CountType(Batch(firstId, tokens, vip, now), General) == |tokens| - vip
  {
    CountTypeSplit(Batch(firstId, tokens, vip, now), vip);
  }

  /** `COUNT(*)` and the three `SUM(CASE …)` columns; a SUM over no rows is NULL. */
  datatype Stats = Stats(total: nat, vip: Option<nat>, general: Option<nat>, voided: Option<nat>)

  function DashboardStats(tickets: seq<Ticket>): (s: Stats)
    ensures s.total == |tickets|
    ensures s.vip.None? <==> |tickets| == 0
    ensures s.vip.None? <==> s.general.None?
    ensures s.vip.None? <==> s.voided.None?
    ensures s.vip.Some? ==> s.vip.value + s.general.value == s.total
    ensures s.voided.Some? ==> s.voided.value <= s.total
  {
    CountsPartition(tickets);
    if |tickets| == 0 then Stats(0, None, None, None)
    else Stats(|tickets|, Some(CountType(tickets, VIP)), Some(CountType(tickets, General)), Some(CountStatus(tickets, Status.Voided)))
  }

  /** A successful issuance raises the VIP and General counts by exactly the requested numbers. */
  lemma IssueStats(st: Store, vip: nat, general: nat, gen: nat -> string)
    requires Issue(st, vip, general, gen).outcome == Created
    ensures DashboardStats(Issue(st, vip, general, gen).store.tickets)
            == Stats(|st.tickets| + vip + general,
                     Some(CountType(st.tickets, VIP) + vip),
                     Some(CountType(st.tickets, General) + general),
                     Some(CountStatus(st.tickets, Status.Voided)))
  {
    var tokens := BatchTokens(gen, vip + general);
    var b := Batch(|st.tickets| + 1, tokens, vip, st.clock);
    IssuedTokens(st, vip, general, gen);
    CountTypeBatch(|st.tickets| + 1, tokens, vip, st.clock);
    StatsOfAppend(st.tickets, b, vip, general);
  }

  /** `b` is `a` with the status of ticket `i` replaced, and nothing else changed. */
  predicate StatusChangedAt(a: seq<Ticket>, b: seq<Ticket>, i: nat)
  {
    && |a| == |b| && i < |a|
    && b[i] == a[i].(status := b[i].status)
    && forall k :: 0 <= k < |a| && k != i ==> b[k] == a[k]
  }

  /** The prefixes of two sequences that differ only in one status differ the same way, or not at all. */
  lemma StatusChangedInit(a: seq<Ticket>, b: seq<Ticket>, i: nat)
    requires StatusChangedAt(a, b, i) && i < |a| - 1
    ensures StatusChangedAt(a[..|a| - 1], b[..|a| - 1], i)
  {
    var n := |a| - 1;
    assert forall k :: 0 <= k < n ==> a[..n][k] == a[k] && b[..n][k] == b[k];
  }

  /** Changing one ticket's status keeps both type columns. */
  lemma {:induction false} CountTypeOfStatusChange(a: seq<Ticket>, b: seq<Ticket>, i: nat, ty: TicketType)
    requires StatusChangedAt(a, b, i)
    ensures CountType(b, ty) == CountType(a, ty)
    decreases |a|
  {
    var n := |a| - 1;
    if i < n {
      StatusChangedInit(a, b, i);
      CountTypeOfStatusChange(a[..n], b[..n], i, ty);
    } else {
      assert a[..n] == b[..n];
    }
  }

  /** Changing one ticket's status moves the voided column by that ticket alone. */
  lemma {:induction false} CountsOfStatusChange(a: seq<Ticket>, b: seq<Ticket>, i: nat)
    requires StatusChangedAt(a, b, i)
    ensures CountStatus(b, Status.Voided) + (if a[i].status == Status.Voided then 1 else 0)
            == CountStatus(a, Status.Voided) + (if b[i].status == Status.Voided then 1 else 0)
    decreases |a|
  {
    var n := |a| - 1;
    if i < n {
      StatusChangedInit(a, b, i);
      CountsOfStatusChange(a[..n], b[..n], i);
    } else {
      assert a[..n] == b[..n];
    }
  }

  /**
   * Voiding an active ticket raises the voided column by one and reinstating a
   * voided ticket lowers it by one; the other columns stay as they were.
   */
  lemma ToggleStats(st: Store, token: string, i: nat)
    requires UniqueTokens(st.tickets)
    requires i < |st.tickets| && st.tickets[i].token == token
    ensures var before := DashboardStats(st.tickets);
      var after := DashboardStats(ToggleVoid(st, token).store.tickets);
      && after.total == before.total && after.vip == before.vip && after.general == before.general
      && before.voided.Some? && after.voided.Some?
      && (st.tickets[i].status == Active ==> after.voided.value == before.voided.value + 1)
      && (st.tickets[i].status == Status.Voided ==> after.voided.value + 1 == before.voided.value)
  {
    var t := ToggleVoid(st, token).store.tickets;
    assert StatusChangedAt(st.tickets, t, i);
    CountTypeOfStatusChange(st.tickets, t, i, VIP);
    CountTypeOfStatusChange(st.tickets, t, i, General);
    CountsOfStatusChange(st.tickets, t, i);
  }

  /** Appending active tickets adds their type counts and leaves the voided count. */
  lemma StatsOfAppend(a: seq<Ticket>, b: seq<Ticket>, vip: nat, general: nat)
    requires |b| > 0
    requires forall k :: 0 <= k < |b| ==> b[k].status == Active
    requires CountType(b, VIP) == vip && CountType(b, General) == general
    ensures DashboardStats(a + b)
            == Stats(|a| + |b|,
                     Some(CountType(a, VIP) + vip),
                     Some(CountType(a, General) + general),
                     Some(CountStatus(a, Status.Voided)))
  {
    CountTypeAppend(a, b, VIP);
    CountTypeAppend(a, b, General);
    CountStatusActiveAppend(a, b);
  }

  lemma {:induction false} CountStatusActiveAppend(a: seq<Ticket>, b: seq<Ticket>)
    requires forall k :: 0 <= k < |b| ==> b[k].status == Active
    ensures CountStatus(a + b, Status.Voided) == CountStatus(a, Status.Voided)
    decreases |b|
  {
    if |b| > 0 {
      assert (a + b)[..|a + b| - 1] == a + b[..|b| - 1];
      CountStatusActiveAppend(a, b[..|b| - 1]);
    } else {
      assert a + b == a;
    }
  }

  // ----- Dashboard listing -----

  /** The query string: `q`, `filterType` and `page` (None when absent). */
  datatype ListingQuery = ListingQuery(q: string, filterType: string, page: Option<string>)

  datatype Listing = Listing(rows: seq<Ticket>, totalRows: nat, page: int, totalPages: nat)

  /** `parseInt(page)` with `page` defaulting to the number 1; NaN is None. */
  function RequestedPage(page: Option<string>): Option<int>
  {
    match page
    case None => Some(1)
    case Some(s) => ParseInt(s)
  }

  /** `(Math.max(1, page) - 1) * limit`. */
  function Offset(page: int): (off: nat)
    ensures off % PageSize == 0
    ensures page <= 1 ==> off == 0
    ensures page >= 1 ==> off == (page - 1) * PageSize
  {
    var p := Max(1, page);
    (p - 1) * PageSize
  }

  /** `Math.ceil(totalRows / limit)`: the fewest pages of 50 that hold every row. */
  function TotalPages(n: nat): (pages: nat)
    ensures pages * PageSize >= n
    ensures pages == 0 || (pages - 1) * PageSize < n
  {
    (n + PageSize - 1) / PageSize
  }

  /** `token LIKE q%` only for a non-empty `q`; `type = ?` only for a known type name. */
  predicate Selected(t: Ticket, q: string, filterType: string)
  {
    && (q == "" || Like(q + "%", t.token))
    && (filterType == "VIP" || filterType == "General" ==> TypeName(t.ticketType) == filterType)
  }

  /** The rows the WHERE clause keeps, in insertion order. */
  function Filter(tickets: seq<Ticket>, q: string, filterType: string): (r: seq<Ticket>)
    ensures |r| <= |tickets|
    ensures forall t :: t in r <==> t in tickets && Selected(t, q, filterType)
  {
    if |tickets| == 0 then []
    else
      var rest := Filter(tickets[1..], q, filterType);
      assert forall t :: t in tickets <==> t == tickets[0] || t in tickets[1..];
      if Selected(tickets[0], q, filterType) then [tickets[0]] + rest else rest
  }

  function Reverse(s: seq<Ticket>): (r: seq<Ticket>)
    ensures |r| == |s|
    ensures forall t :: t in r <==> t in s
  {
    if |s| == 0 then []
    else
      var init := s[..|s| - 1];
      assert forall t :: t in s <==> t == s[|s| - 1] || t in init;
      [s[|s| - 1]] + Reverse(init)
  }

  /** Position `i` of the reversal holds the `i`-th element from the end. */
  lemma {:induction false} ReverseIndex(s: seq<Ticket>, i: nat)
    requires i < |s|
    ensures Reverse(s)[i] == s[|s| - 1 - i]
    decreases |s|
  {
    if i > 0 {
      ReverseIndex(s[..|s| - 1], i - 1);
    }
  }

  /**
   * `ORDER BY created_at DESC`, ties broken newest-inserted first (SQLite leaves
   * the order of equal keys open).
   */
  function NewestFirst(tickets: seq<Ticket>, q: string, filterType: string): seq<Ticket>
  {
    Reverse(Filter(tickets, q, filterType))
  }

  /** `LIMIT 50 OFFSET offset` over the ordered matches. */
  function Page(matching: seq<Ticket>, page: int): (rows: seq<Ticket>)
    ensures |rows| <= PageSize
    ensures forall t :: t in rows ==> t in matching
  {
    var off := Offset(page);
    if off >= |matching| then [] else matching[off..Min(off + PageSize, |matching|)]
  }

  /** The listing half of `GET /admin`; None when `page` parses as NaN. */
  function Dashboard(st: Store, query: ListingQuery): (r: Option<Listing>)
    ensures r.None? <==> RequestedPage(query.page).None?
    ensures r.Some? ==> |r.value.rows| <= PageSize
    ensures r.Some? ==> forall t :: t in r.value.rows ==> t in st.tickets && Selected(t, query.q, query.filterType)
    ensures r.Some? ==> r.value.page == RequestedPage(query.page).value
    ensures r.Some? ==> r.value.totalRows == |Filter(st.tickets, query.q, query.filterType)|
    ensures r.Some? ==> r.value.totalPages == TotalPages(r.value.totalRows)
    ensures r.Some? ==> r.value.totalPages * PageSize >= r.value.totalRows
    ensures r.Some? ==> r.value.rows == Page(NewestFirst(st.tickets, query.q, query.filterType), r.value.page)
  {
    match RequestedPage(query.page)
    case None => None
    case Some(p) =>
      var matching := NewestFirst(st.tickets, query.q, query.filterType);
      Some(Listing(Page(matching, p), |matching|, p, TotalPages(|matching|)))
  }

  /** Without a search text or a known type, every ticket is listed. */
  lemma {:induction false} FilterNothing(tickets: seq<Ticket>, filterType: string)
    requires filterType != "VIP" && filterType != "General"
    ensures Filter(tickets, "", filterType) == tickets
    decreases |tickets|
  {
    if |tickets| > 0 {
      FilterNothing(tickets[1..], filterType);
      assert [tickets[0]] + tickets[1..] == tickets;
    }
  }

  /** Every match sits on exactly one page: the k-th newest on page k / 50 + 1, at row k % 50. */
  lemma EveryMatchOnItsPage(matching: seq<Ticket>, k: nat)
    requires k < |matching|
    ensures Page(matching, k / PageSize + 1)[k % PageSize] == matching[k]
    ensures forall p :: 1 <= p && p != k / PageSize + 1 ==>
      !(Offset(p) <= k < Offset(p) + |Page(matching, p)|)
  {
    var p := k / PageSize + 1;
    assert Offset(p) == (k / PageSize) * PageSize;
    forall q | 1 <= q && q != p
      ensures !(Offset(q) <= k < Offset(q) + |Page(matching, q)|)
    {
      assert Offset(q) == (q - 1) * PageSize;
      if q < p {
        assert (q - 1) * PageSize + PageSize <= (k / PageSize) * PageSize;
      } else {
        assert (q - 1) * PageSize >= (k / PageSize + 1) * PageSize;
      }
    }
  }

  /** Pages 1 to TotalPages hold rows; a page past the last is empty. */
  lemma PageEmptyIff(matching: seq<Ticket>, page: int)
    ensures Page(matching, page) == [] <==> Max(1, page) > TotalPages(|matching|)
  {
    var p := Max(1, page);
    var n := |matching|;
    var pages := TotalPages(n);
    if p > pages {
      assert (p - 1) * PageSize >= pages * PageSize;
    } else {
      assert (p - 1) * PageSize <= (pages - 1) * PageSize;
    }
  }

  /**
   * `ORDER BY created_at DESC` over the whole listing: in creation order, every
   * match is at least as new as every match after it.
   */
  lemma NewestFirstOrdered(tickets: seq<Ticket>, q: string, filterType: string)
    requires CreatedInOrder(tickets)
    ensures var m := NewestFirst(tickets, q, filterType);
      forall i, j :: 0 <= i < j < |m| ==> m[i].createdAt >= m[j].createdAt
  {
    var f := Filter(tickets, q, filterType);
    FilterAscending(tickets, q, filterType);
    var m := Reverse(f);
    forall i, j | 0 <= i < j < |m| ensures m[i].createdAt >= m[j].createdAt {
      ReverseIndex(f, i);
      ReverseIndex(f, j);
    }
  }

  /** In a well-formed store each page is ordered by creation time, newest first. */
  lemma ListingNewestFirst(st: Store, q: string, filterType: string, page: int)
    requires WellFormed(st)
    ensures var rows := Page(NewestFirst(st.tickets, q, filterType), page);
      forall i, j :: 0 <= i < j < |rows| ==> rows[i].createdAt >= rows[j].createdAt
  {
    var m := NewestFirst(st.tickets, q, filterType);
    NewestFirstOrdered(st.tickets, q, filterType);
    var rows := Page(m, page);
    forall i, j | 0 <= i < j < |rows| ensures rows[i].createdAt >= rows[j].createdAt {
      PageWindow(m, page, i);
      PageWindow(m, page, j);
    }
  }

  /** An earlier page lists tickets at least as new as every ticket of a later page. */
  lemma EarlierPagesNewer(st: Store, q: string, filterType: string, p1: int, p2: int)
    requires WellFormed(st)
    requires 1 <= p1 < p2
    ensures var m := NewestFirst(st.tickets, q, filterType);
      forall i, j :: 0 <= i < |Page(m, p1)| && 0 <= j < |Page(m, p2)| ==>
        Page(m, p1)[i].createdAt >= Page(m, p2)[j].createdAt
  {
    var m := NewestFirst(st.tickets, q, filterType);
    NewestFirstOrdered(st.tickets, q, filterType);
    forall i, j | 0 <= i < |Page(m, p1)| && 0 <= j < |Page(m, p2)|
      ensures Page(m, p1)[i].createdAt >= Page(m, p2)[j].createdAt
    {
      PageWindow(m, p1, i);
      PageWindow(m, p2, j);
      assert Offset(p1) + PageSize <= Offset(p2);
    }
  }

  lemma {:induction false} FilterAscending(tickets: seq<Ticket>, q: string, filterType: string)
    requires CreatedInOrder(tickets)
    ensures CreatedInOrder(Filter(tickets, q, filterType))
    decreases |tickets|
  {
    if |tickets| > 0 {
      var rest := tickets[1..];
      assert CreatedInOrder(rest) by {
        forall i, j | 0 <= i < j < |rest| ensures rest[i].createdAt <= rest[j].createdAt {
          assert rest[i] == tickets[i + 1] && rest[j] == tickets[j + 1];
        }
      }
      FilterAscending(rest, q, filterType);
      var fr := Filter(rest, q, filterType);
      if Selected(tickets[0], q, filterType) {
        var r := [tickets[0]] + fr;
        forall i, j | 0 <= i < j < |r| ensures r[i].createdAt <= r[j].createdAt {
          if i == 0 {
            assert r[j] in rest;
            var k :| 0 <= k < |rest| && rest[k] == r[j];
            assert rest[k] == tickets[k + 1];
          } else {
            assert r[i] == fr[i - 1] && r[j] == fr[j - 1];
          }
        }
      }
    }
  }

  /** No ticket occurs twice. */
  predicate Distinct(s: seq<Ticket>)
  {
    forall i, j :: 0 <= i < j < |s| ==> s[i] != s[j]
  }

  lemma IdsDistinct(tickets: seq<Ticket>)
    requires TicketIds(tickets)
    ensures Distinct(tickets)
  {
    forall i, j | 0 <= i < j < |tickets| ensures tickets[i] != tickets[j] {
      assert tickets[i].id != tickets[j].id;
    }
  }

  lemma {:induction false} FilterDistinct(tickets: seq<Ticket>, q: string, filterType: string)
    requires Distinct(tickets)
    ensures Distinct(Filter(tickets, q, filterType))
    decreases |tickets|
  {
    if |tickets| > 0 {
      var rest := tickets[1..];
      assert Distinct(rest) by {
        forall i, j | 0 <= i < j < |rest| ensures rest[i] != rest[j] {
          assert rest[i] == tickets[i + 1] && rest[j] == tickets[j + 1];
        }
      }
      FilterDistinct(rest, q, filterType);
      assert tickets[0] !in rest by {
        forall k | 0 <= k < |rest| ensures rest[k] != tickets[0] {
          assert rest[k] == tickets[k + 1];
        }
      }
    }
  }

  lemma ReverseDistinct(s: seq<Ticket>)
    requires Distinct(s)
    ensures Distinct(Reverse(s))
  {
    forall i, j | 0 <= i < j < |Reverse(s)| ensures Reverse(s)[i] != Reverse(s)[j] {
      ReverseIndex(s, i);
      ReverseIndex(s, j);
    }
  }

  /** Row `r` of a page is the match at the page's offset plus `r`. */
  lemma PageWindow(matching: seq<Ticket>, page: int, r: nat)
    requires r < |Page(matching, page)|
    ensures Offset(page) + r < |matching| && Page(matching, page)[r] == matching[Offset(page) + r]
  {
  }

  /** The k-th match is on page k div 50 + 1, which is at most the last page. */
  lemma MatchOnHomePage(matching: seq<Ticket>, k: nat)
    requires k < |matching|
    ensures 1 <= k / PageSize + 1 <= TotalPages(|matching|)
    ensures matching[k] in Page(matching, k / PageSize + 1)
  {
    EveryMatchOnItsPage(matching, k);
    assert (k / PageSize) * PageSize <= k < |matching| <= TotalPages(|matching|) * PageSize;
  }

  /** With no ticket listed twice, a page showing the k-th match is page k div 50 + 1. */
  lemma MatchOnlyOnHomePage(matching: seq<Ticket>, k: nat, p: int)
    requires Distinct(matching) && k < |matching|
    requires 1 <= p && matching[k] in Page(matching, p)
    ensures p == k / PageSize + 1
  {
    var r :| 0 <= r < |Page(matching, p)| && Page(matching, p)[r] == matching[k];
    PageWindow(matching, p, r);
    assert Offset(p) + r == k;
    EveryMatchOnItsPage(matching, k);
  }

  /**
   * In a store with distinct ids, every ticket the search selects is listed on
   * exactly one page, and that page lies between 1 and the last page.
   */
  lemma SelectedListedOnce(st: Store, q: string, filterType: string, t: Ticket)
    requires TicketIds(st.tickets)
    requires t in st.tickets && Selected(t, q, filterType)
    ensures var m := NewestFirst(st.tickets, q, filterType);
      && (exists p :: 1 <= p <= TotalPages(|m|) && t in Page(m, p))
      && (forall p, p' :: 1 <= p && 1 <= p' && t in Page(m, p) && t in Page(m, p') ==> p == p')
  {
    var f := Filter(st.tickets, q, filterType);
    var m := NewestFirst(st.tickets, q, filterType);
    IdsDistinct(st.tickets);
    FilterDistinct(st.tickets, q, filterType);
    ReverseDistinct(f);
    assert t in m;
    var k :| 0 <= k < |m| && m[k] == t;
    MatchOnHomePage(m, k);
    forall p | 1 <= p && t in Page(m, p) ensures p == k / PageSize + 1 {
      MatchOnlyOnHomePage(m, k, p);
    }
  }
}

=== FILE: js_string.dfy ===
/**
 * The JavaScript string built-ins the handlers rely on: `String.prototype.trim`,
 * `slice(0, n)`, `split('/')` with `filter(Boolean)`, and the global `parseInt`
 * (ECMA-262, sections 22.1.3.32, 22.1.3.22, 22.1.3.23 and 19.2.5).
 * Strings are sequences of characters; JavaScript counts UTF-16 code units.
 */
module JsString {
  import opened Wrappers

  /** WhiteSpace and LineTerminator code points (ECMA-262 sections 12.2 and 12.3). */
  predicate IsWhiteSpace(c: char)
  {
    || c == '\t' || c == '\n' || c == '\U{000B}' || c == '\U{000C}' || c == '\r' || c == ' '
    || c == '\U{00A0}' || c == '\U{1680}' || ('\U{2000}' <= c <= '\U{200A}')
    || c == '\U{2028}' || c == '\U{2029}' || c == '\U{202F}' || c == '\U{205F}'
    || c == '\U{3000}' || c == '\U{FEFF}'
  }

  predicate AllWhiteSpace(s: string)
  {
    forall i :: 0 <= i < |s| ==> IsWhiteSpace(s[i])
  }

  /** Neither end of `s` is white space (the shape `trim` produces). */
  predicate Trimmed(s: string)
  {
    s == [] || (!IsWhiteSpace(s[0]) && !IsWhiteSpace(s[|s| - 1]))
  }

  /**
   * `String.prototype.trimStart`: drops leading white space. The result is the
   * suffix of `s` that `TrimStartDrops` describes; the contract keeps only what
   * is cheap for the verifier to carry around.
   */
  function TrimStart(s: string): (r: string)
    ensures |r| <= |s|
    ensures r == [] || !IsWhiteSpace(r[0])
  {
    if |s| > 0 && IsWhiteSpace(s[0]) then TrimStart(s[1..]) else s
  }

  /** `String.prototype.trimEnd`: drops trailing white space, keeping the prefix `TrimEndDrops` describes. */
  function TrimEnd(s: string): (r: string)
    ensures |r| <= |s|
    ensures r == [] || !IsWhiteSpace(r[|r| - 1])
  {
    if |s| > 0 && IsWhiteSpace(s[|s| - 1]) then TrimEnd(s[..|s| - 1]) else s
  }

  /** `trimStart` keeps a suffix and what it drops is all white space. */
  lemma {:induction false} TrimStartDrops(s: string)
    ensures var r := TrimStart(s); r == s[|s| - |r|..] && AllWhiteSpace(s[..|s| - |r|])
    decreases |s|
  {
    if |s| > 0 && IsWhiteSpace(s[0]) {
      var r := TrimStart(s[1..]);
      TrimStartDrops(s[1..]);
      assert s[1..][|s| - 1 - |r|..] == s[|s| - |r|..];
      assert s[..|s| - |r|] == [s[0]] + s[1..][..|s| - 1 - |r|];
    } else {
      assert s[..0] == [];
    }
  }

  /** `trimEnd` keeps a prefix and what it drops is all white space. */
  lemma {:induction false} TrimEndDrops(s: string)
    ensures var r := TrimEnd(s); r == s[..|r|] && AllWhiteSpace(s[|r|..])
    decreases |s|
  {
    if |s| > 0 && IsWhiteSpace(s[|s| - 1]) {
      var r := TrimEnd(s[..|s| - 1]);
      TrimEndDrops(s[..|s| - 1]);
      assert s[..|s| - 1][..|r|] == s[..|r|];
      assert s[|r|..] == s[..|s| - 1][|r|..] + [s[|s| - 1]];
    } else {
      assert s[|s|..] == [];
    }
  }

  /** `String.prototype.trim`. */
  function Trim(s: string): (r: string)
    ensures |r| <= |s|
    ensures Trimmed(r)
  {
    var u := TrimStart(s);
    TrimEndDrops(u);
    TrimEnd(u)
  }

  lemma {:induction false} TrimStartOfPadded(a: string, m: string)
    requires AllWhiteSpace(a)
    requires m == [] || !IsWhiteSpace(m[0])
    ensures TrimStart(a + m) == m
    decreases |a|
  {
    if |a| > 0 {
      assert (a + m)[1..] == a[1..] + m;
      TrimStartOfPadded(a[1..], m);
    } else {
      assert a + m == m;
    }
  }

  lemma {:induction false} TrimEndOfPadded(m: string, b: string)
    requires AllWhiteSpace(b)
    requires m == [] || !IsWhiteSpace(m[|m| - 1])
    ensures TrimEnd(m + b) == m
    decreases |b|
  {
    if |b| > 0 {
      assert (m + b)[..|m + b| - 1] == m + b[..|b| - 1];
      TrimEndOfPadded(m, b[..|b| - 1]);
    } else {
      assert m + b == m;
    }
  }

  /**
   * Reference characterisation of `trim`: a core that does not start or end in
   * white space, padded on both sides with white space, trims to that core.
   */
  lemma TrimOfPadded(a: string, m: string, b: string)
    requires AllWhiteSpace(a) && AllWhiteSpace(b)
    requires Trimmed(m)
    ensures Trim(a + m + b) == m
  {
    if m == [] {
      assert a + m + b == a + b;
      assert AllWhiteSpace(a + b);
      TrimStartOfPadded(a + b, []);
      assert a + b + [] == a + b;
      assert TrimStart(a + b) == [];
    } else {
      assert a + m + b == a + (m + b);
      TrimStartOfPadded(a, m + b);
      TrimEndOfPadded(m, b);
    }
  }

  /** Trimming twice is trimming once. */
  lemma TrimIdempotent(s: string)
    ensures Trim(Trim(s)) == Trim(s)
  {
    var m := Trim(s);
    TrimOfPadded([], m, []);
    assert [] + m + [] == m;
  }

  /** `trim` yields the empty string exactly when the input is all white space. */
  lemma TrimEmptyIff(s: string)
    ensures Trim(s) == [] <==> AllWhiteSpace(s)
  {
    if AllWhiteSpace(s) {
      TrimOfPadded(s, [], []);
      assert s + [] + [] == s;
    } else {
      WhiteSpaceAfterTrimStart(s);
      TrimEndEmpty(TrimStart(s));
    }
  }

  /** Only white space is dropped from the front. */
  lemma {:induction false} WhiteSpaceAfterTrimStart(s: string)
    ensures AllWhiteSpace(TrimStart(s)) ==> AllWhiteSpace(s)
    decreases |s|
  {
    if |s| > 0 && IsWhiteSpace(s[0]) {
      WhiteSpaceAfterTrimStart(s[1..]);
      if AllWhiteSpace(s[1..]) {
        forall i | 0 <= i < |s| ensures IsWhiteSpace(s[i]) {
          if i > 0 { assert s[i] == s[1..][i - 1]; }
        }
      }
    }
  }

  /** Only white space is dropped from the back. */
  lemma {:induction false} TrimEndEmpty(u: string)
    ensures TrimEnd(u) == [] ==> AllWhiteSpace(u)
    decreases |u|
  {
    if |u| > 0 && IsWhiteSpace(u[|u| - 1]) {
      var init := u[..|u| - 1];
      TrimEndEmpty(init);
      if AllWhiteSpace(init) {
        forall i | 0 <= i < |u| ensures IsWhiteSpace(u[i]) {
          if i < |u| - 1 { assert u[i] == init[i]; }
        }
      }
    }
  }

  /** `s.slice(0, end)` for a non-negative `end`: the end index is clamped to the length. */
  function SliceTo(s: string, end: nat): (r: string)
    ensures |r| == Min(end, |s|)
    ensures r == s[..|r|]
  {
    if end <= |s| then s[..end] else s
  }

  /** The position of the first `c` in `s`, if any (`indexOf`). */
  function IndexOf(s: string, c: char): (r: Option<nat>)
    ensures r.Some? ==> r.value < |s| && s[r.value] == c && c !in s[..r.value]
    ensures r.None? ==> c !in s
  {
    if |s| == 0 then None
    else if s[0] == c then Some(0)
    else match IndexOf(s[1..], c)
      case None => None
      case Some(k) =>
        assert s[..k + 1] == [s[0]] + s[1..][..k];
        Some(k + 1)
  }

  /** `parts.join(sep)` for a one-character separator: the inverse of `Split`. */
  function Join(parts: seq<string>, sep: char): string
  {
    if |parts| == 0 then ""
    else if |parts| == 1 then parts[0]
    else parts[0] + [sep] + Join(parts[1..], sep)
  }

  /** `s.split(sep)` for a one-character separator: never empty, pieces free of `sep`, joining restores `s`. */
  function Split(s: string, sep: char): (parts: seq<string>)
    ensures |parts| >= 1
    ensures forall k :: 0 <= k < |parts| ==> sep !in parts[k]
    ensures Join(parts, sep) == s
    decreases |s|
  {
    match IndexOf(s, sep)
    case None => [s]
    case Some(i) =>
      var rest := Split(s[i + 1..], sep);
      assert ([s[..i]] + rest)[1..] == rest;
      assert s == s[..i] + [sep] + s[i + 1..];
      [s[..i]] + rest
  }

  /** Splitting a join of separator-free pieces gives the pieces back. */
  lemma {:induction false} SplitJoin(parts: seq<string>, sep: char)
    requires |parts| >= 1
    requires forall k :: 0 <= k < |parts| ==> sep !in parts[k]
    ensures Split(Join(parts, sep), sep) == parts
    decreases |parts|
  {
    if |parts| > 1 {
      var s := Join(parts, sep);
      var p := parts[0];
      assert s == p + ([sep] + Join(parts[1..], sep));
      assert s[|p|] == sep;
      assert s[..|p|] == p;
      assert IndexOf(s, sep) == Some(|p|);
      assert s[|p| + 1..] == Join(parts[1..], sep);
      SplitJoin(parts[1..], sep);
      assert [p] + parts[1..] == parts;
    } else {
      assert IndexOf(parts[0], sep).None?;
    }
  }

  /** Joining two non-empty lists of pieces puts one separator between their joins. */
  lemma {:induction false} JoinAppend(p: seq<string>, q: seq<string>, sep: char)
    requires |p| >= 1 && |q| >= 1
    ensures Join(p + q, sep) == Join(p, sep) + [sep] + Join(q, sep)
    decreases |p|
  {
    if |p| > 1 {
      JoinAppend(p[1..], q, sep);
      assert (p + q)[1..] == p[1..] + q;
    } else {
      assert (p + q)[1..] == q;
    }
  }

  /** Splitting at a separator splits each side on its own: `(a + sep + b).split(sep)` is `a.split(sep)` then `b.split(sep)`. */
  lemma SplitAppend(a: string, b: string, sep: char)
    ensures Split(a + [sep] + b, sep) == Split(a, sep) + Split(b, sep)
  {
    var pa := Split(a, sep);
    var pb := Split(b, sep);
    JoinAppend(pa, pb, sep);
    assert forall k :: 0 <= k < |pa + pb| ==> sep !in (pa + pb)[k] by {
      forall k | 0 <= k < |pa + pb| ensures sep !in (pa + pb)[k] {
        if k < |pa| { assert (pa + pb)[k] == pa[k]; } else { assert (pa + pb)[k] == pb[k - |pa|]; }
      }
    }
    SplitJoin(pa + pb, sep);
  }

  /** `parts.filter(Boolean)` on strings: keeps the non-empty ones, in order. */
  function NonEmpty(parts: seq<string>): (r: seq<string>)
    ensures |r| <= |parts|
    ensures forall k :: 0 <= k < |r| ==> r[k] != ""
    ensures forall x :: x in r <==> x in parts && x != ""
  {
    if |parts| == 0 then []
    else if parts[0] == "" then NonEmpty(parts[1..])
    else [parts[0]] + NonEmpty(parts[1..])
  }

  /** `filter(Boolean)` keeps order: filtering a concatenation concatenates the filtered parts. */
  lemma {:induction false} NonEmptyAppend(a: seq<string>, b: seq<string>)
    ensures NonEmpty(a + b) == NonEmpty(a) + NonEmpty(b)
    decreases |a|
  {
    if |a| > 0 {
      assert (a + b)[0] == a[0] && (a + b)[1..] == a[1..] + b;
      NonEmptyAppend(a[1..], b);
    } else {
      assert a + b == b;
    }
  }

  // ----- parseInt -----

  /** The value of `c` as a digit of radix up to 36; 36 when it is no digit at all. */
  function DigitValue(c: char): nat
  {
    if '0' <= c <= '9' then c as nat - '0' as nat
    else if 'a' <= c <= 'z' then c as nat - 'a' as nat + 10
    else if 'A' <= c <= 'Z' then c as nat - 'A' as nat + 10
    else 36
  }

  /** The length of the longest prefix of `s` made of radix-`radix` digits. */
  function DigitRun(s: string, radix: nat): (n: nat)
    ensures n <= |s|
    ensures forall i :: 0 <= i < n ==> DigitValue(s[i]) < radix
    ensures n == |s| || DigitValue(s[n]) >= radix
  {
    if |s| > 0 && DigitValue(s[0]) < radix then 1 + DigitRun(s[1..], radix) else 0
  }

  /** The number written by `digits`, most significant digit first. */
  function ValueOf(digits: string, radix: nat): nat
  {
    if |digits| == 0 then 0
    else ValueOf(digits[..|digits| - 1], radix) * radix + DigitValue(digits[|digits| - 1])
  }

  /**
   * The global `parseInt(input)` with no radix argument: leading white space is
   * skipped, one sign is read, a `0x`/`0X` prefix selects radix 16, and the
   * longest run of digits is read; no digit at all gives NaN (`None`).
   */
  function ParseInt(input: string): (r: Option<int>)
    ensures r.None? <==> !LeadsWithDigit(Unsigned(TrimStart(input)))
    ensures r.Some? && r.value < 0 ==> TrimStart(input)[0] == '-'
  {
    ParseSigned(TrimStart(input))
  }

  /** The text after one optional `+` or `-`. */
  function Unsigned(s: string): string
  {
    if |s| > 0 && (s[0] == '-' || s[0] == '+') then s[1..] else s
  }

  /** A digit follows at once: a hex digit after a `0x`/`0X` prefix, otherwise a decimal digit. */
  predicate LeadsWithDigit(u: string)
  {
    if |u| >= 2 && u[0] == '0' && (u[1] == 'x' || u[1] == 'X') then |u| > 2 && DigitValue(u[2]) < 16
    else |u| > 0 && DigitValue(u[0]) < 10
  }

  /** The sign step of `parseInt`, after leading white space is gone. */
  function ParseSigned(s: string): (r: Option<int>)
  {
    var negative := |s| > 0 && s[0] == '-';
    var unsigned := Unsigned(s);
    match ParseMagnitude(unsigned)
    case None => None
    case Some(m) =>
      var v: int := m;
      Some(if negative then -v else v)
  }

  /** The radix and digit steps of `parseInt`, after the sign is gone. */
  function ParseMagnitude(u: string): (r: Option<nat>)
  {
    var hex := |u| >= 2 && u[0] == '0' && (u[1] == 'x' || u[1] == 'X');
    var radix := if hex then 16 else 10;
    var body := if hex then u[2..] else u;
    var digits := body[..DigitRun(body, radix)];
    if |digits| == 0 then None else Some(ValueOf(digits, radix))
  }

  function DecimalDigit(d: nat): char
    requires d < 10
  {
    ('0' as nat + d) as char
  }

  /** `String(n)` for a natural number: decimal digits, no leading zero. */
  function Decimal(n: nat): (r: string)
    ensures |r| >= 1
    ensures forall i :: 0 <= i < |r| ==> DigitValue(r[i]) < 10
    ensures r[0] == '0' ==> n == 0
    ensures |r| == 1 <==> n < 10
  {
    if n < 10 then [DecimalDigit(n)] else Decimal(n / 10) + [DecimalDigit(n % 10)]
  }

  /** `String(i)` for an integer. */
  function IntToString(i: int): string
  {
    if i < 0 then "-" + Decimal(-i) else Decimal(i)
  }

  lemma {:induction false} ValueOfDecimal(n: nat)
    ensures ValueOf(Decimal(n), 10) == n
    decreases n
  {
    if n >= 10 {
      var d := Decimal(n / 10) + [DecimalDigit(n % 10)];
      assert d[..|d| - 1] == Decimal(n / 10);
      ValueOfDecimal(n / 10);
    }
  }

  lemma ParseMagnitudeDecimal(n: nat)
    ensures ParseMagnitude(Decimal(n)) == Some(n)
  {
    var t := Decimal(n);
    assert DigitRun(t, 10) == |t|;
    assert t[..|t|] == t;
    ValueOfDecimal(n);
  }

  lemma TrimStartOfDecimal(s: string, n: nat)
    requires s == Decimal(n) || s == "-" + Decimal(n)
    ensures TrimStart(s) == s
  {
    assert DigitValue(Decimal(n)[0]) < 10;
    assert !IsWhiteSpace(s[0]);
    TrimStartOfPadded([], s);
    assert [] + s == s;
  }

  lemma ParseSignedDecimal(n: nat)
    ensures ParseSigned(Decimal(n)) == Some(n)
  {
    var t := Decimal(n);
    assert t[0] != '-' && t[0] != '+' by { assert DigitValue(t[0]) < 10; }
    ParseMagnitudeDecimal(n);
  }

  lemma ParseSignedNegated(n: nat)
    ensures ParseSigned("-" + Decimal(n)) == Some(-(n as int))
  {
    var s := "-" + Decimal(n);
    assert |s| > 0 && s[0] == '-';
    assert s[1..] == Decimal(n);
    ParseMagnitudeDecimal(n);
  }

  /** `parseInt` reads back what `String` writes, for every integer. */
  lemma ParseIntToString(i: int)
    ensures ParseInt(IntToString(i)) == Some(i)
  {
    var s := IntToString(i);
    if i < 0 {
      var n: nat := -i;
      assert s == "-" + Decimal(n);
      TrimStartOfDecimal(s, n);
      ParseSignedNegated(n);
    } else {
      assert s == Decimal(i);
      TrimStartOfDecimal(s, i);
      ParseSignedDecimal(i);
    }
    assert ParseInt(s) == ParseSigned(TrimStart(s)) == ParseSigned(s);
  }
}

=== FILE: scan_route.dfy ===
/**
 * `POST /api/scan`: adjudicates one scanned token. The handler runs to completion
 * on a synchronous database, so it is one transition from a store to a new store
 * and a JSON reply. Every call appends exactly one scan record.
 */
module ScanRoute {
  import opened Wrappers
  import opened JsString
  import opened Schema

  /**
   * What the handler reads from the request: the `token` body field (None when
   * absent or falsy), the `User-Agent` header and the authenticated admin's username.
   */
  datatype ScanRequest = ScanRequest(token: Option<string>, userAgent: Option<string>, username: Option<string>)

  /** The JSON reply: `{result:'invalid'}`, `{result:'voided',type}`, `{result:'used',type,firstScanned}`, `{result:'valid',type,scannedAt}`. */
  datatype ScanReply =
    | ReplyInvalid
    | ReplyVoided(ticketType: TicketType)
    | ReplyUsed(ticketType: TicketType, firstScanned: nat)
    | ReplyValid(ticketType: TicketType, scannedAt: nat)

  datatype ScanStep = ScanStep(store: Store, reply: ScanReply)

  const BlockedSuffix: string := " [RE-SCAN BLOCKED]"

  function ResultField(r: ScanReply): string
  {
    match r
    case ReplyInvalid => "invalid"
    case ReplyVoided(_) => "voided"
    case ReplyUsed(_, _) => "used"
    case ReplyValid(_, _) => "valid"
  }

  /** The `type` field; the invalid reply carries none, so it reveals nothing about the token. */
  function TypeField(r: ScanReply): Option<string>
  {
    if r.ReplyInvalid? then None else Some(TypeName(r.ticketType))
  }

  /** `(req.body.token || '').trim()`. */
  function NormalizedToken(req: ScanRequest): string
  {
    Trim(req.token.GetOr(""))
  }

  /** `req.headers['user-agent'] || null`: an empty header counts as absent. */
  function DeviceInfo(req: ScanRequest): (d: Option<string>)
    ensures d.None? <==> req.userAgent.None? || req.userAgent == Some("")
    ensures d.Some? ==> d == req.userAgent && d.value != ""
  {
    if req.userAgent.Some? && req.userAgent.value != "" then req.userAgent else None
  }

  /** `req.admin ? req.admin.username : 'admin'`. */
  function Operator(req: ScanRequest): string
  {
    req.username.GetOr(DefaultOperator)
  }

  /** `deviceInfo + ' [RE-SCAN BLOCKED]'`: JavaScript renders a null device as the text `null`. */
  function BlockedDeviceInfo(d: Option<string>): (r: string)
    ensures |r| >= |BlockedSuffix| && r[|r| - |BlockedSuffix|..] == BlockedSuffix
    ensures r[..|r| - |BlockedSuffix|] == d.GetOr("null")
  {
    d.GetOr("null") + BlockedSuffix
  }

  /** An empty token is never looked up. */
  function Resolve(tickets: seq<Ticket>, token: string): (r: Option<nat>)
    ensures r.Some? ==> r.value < |tickets| && tickets[r.value].token == token && token != ""
  {
    if token == "" then None else FindTicket(tickets, token)
  }

  /** With unique tokens, a ticket's own token resolves to that ticket. */
  lemma ResolveOwnToken(tickets: seq<Ticket>, i: nat)
    requires UniqueTokens(tickets) && i < |tickets| && tickets[i].token != ""
    ensures Resolve(tickets, tickets[i].token) == Some(i)
  {
    var r := FindTicket(tickets, tickets[i].token);
    assert r.Some?;
    assert !(r.value < i) && !(i < r.value);
  }

  function Append(st: Store, rec: ScanRecord): Store
  {
    st.(scans := st.scans + [rec])
  }

  /** The decision and the record that documents it. */
  datatype Adjudication = Adjudication(record: ScanRecord, reply: ScanReply)

  /**
   * The decision for one request: the record to append (numbered `next`, stamped
   * with the store's clock) and the reply. The `scannedAt` of a valid reply is
   * `replyTime`, a separate reading of the JavaScript clock.
   */
  function Adjudicate(st: Store, req: ScanRequest, replyTime: nat): (a: Adjudication)
    ensures a.record.id == |st.scans| + 1
    ensures a.record.scannedAt == st.clock
    ensures a.record.operator == Operator(req)
    ensures a.reply.ReplyValid? <==> a.record.result == Valid
    ensures a.reply.ReplyVoided? <==> a.record.result == ScanResult.Voided
    ensures a.reply == ReplyInvalid <==> a.record.ticketId.None?
  {
    var token := NormalizedToken(req);
    match Resolve(st.tickets, token)
    case None =>
      Adjudication(ScanRecord(|st.scans| + 1, None, SliceTo(token, MaxUnresolvedTokenLength), st.clock, Invalid,
                              Operator(req), DeviceInfo(req)),
                   ReplyInvalid)
    case Some(i) => AdjudicateTicket(st, st.tickets[i], token, Operator(req), DeviceInfo(req), replyTime)
  }

  /** The decision once the token has named ticket `t`. */
  function AdjudicateTicket(st: Store, t: Ticket, token: string, operator: string, device: Option<string>,
                            replyTime: nat): (a: Adjudication)
    ensures a.record.id == |st.scans| + 1 && a.record.scannedAt == st.clock && a.record.operator == operator
    ensures a.record.ticketId == Some(t.id) && a.record.rawToken == token
    ensures a.reply.ReplyValid? <==> a.record.result == Valid
    ensures a.reply.ReplyVoided? <==> a.record.result == ScanResult.Voided
    ensures a.reply != ReplyInvalid
    ensures a.record.result != Invalid ==> a.record.deviceInfo == device
    ensures a.record.result == Invalid ==> a.record.deviceInfo == Some(BlockedDeviceInfo(device))
  {
    var next := |st.scans| + 1;
    if t.status == Status.Voided then
      Adjudication(ScanRecord(next, Some(t.id), token, st.clock, ScanResult.Voided, operator, device),
                   ReplyVoided(t.ticketType))
    else
      match FirstValidScan(st.scans, t.id)
      case Some(first) =>
        Adjudication(ScanRecord(next, Some(t.id), token, st.clock, Invalid, operator, Some(BlockedDeviceInfo(device))),
                     ReplyUsed(t.ticketType, first))
      case None =>
        Adjudication(ScanRecord(next, Some(t.id), token, st.clock, Valid, operator, device),
                     ReplyValid(t.ticketType, replyTime))
  }

  /** A request whose token names ticket `i` is decided on that ticket alone. */
  lemma AdjudicateResolved(st: Store, req: ScanRequest, replyTime: nat, i: nat)
    requires i < |st.tickets| && UniqueTokens(st.tickets)
    requires NormalizedToken(req) == st.tickets[i].token != ""
    ensures Adjudicate(st, req, replyTime)
            == AdjudicateTicket(st, st.tickets[i], st.tickets[i].token, Operator(req), DeviceInfo(req), replyTime)
  {
    ResolveOwnToken(st.tickets, i);
  }

  /**
   * The handler: exactly one record is appended, the tickets are untouched, and
   * the reply is the one the appended record documents.
   */
  function Scan(st: Store, req: ScanRequest, replyTime: nat): (r: ScanStep)
    ensures r.store.tickets == st.tickets && r.store.clock == st.clock
    ensures |r.store.scans| == |st.scans| + 1 && r.store.scans[..|st.scans|] == st.scans
    ensures r.store.scans[|st.scans|].id == |st.scans| + 1
    ensures r.store.scans[|st.scans|].scannedAt == st.clock
    ensures r.store.scans[|st.scans|].operator == if req.username.Some? then req.username.value else "admin"
    ensures r.reply.ReplyValid? <==> r.store.scans[|st.scans|].result == Valid
    ensures r.reply.ReplyVoided? <==> r.store.scans[|st.scans|].result == ScanResult.Voided
    ensures r.reply == ReplyInvalid <==> r.store.scans[|st.scans|].ticketId.None?
  {
    var a := Adjudicate(st, req, replyTime);
    assert (st.scans + [a.record])[..|st.scans|] == st.scans;
    ScanStep(Append(st, a.record), a.reply)
  }

  /** The record a scan appends. */
  function Last(st: Store): ScanRecord
    requires |st.scans| > 0
  {
    st.scans[|st.scans| - 1]
  }

  // ----- The four branches -----

  /**
   * A token that resolves to no ticket is logged with a NULL ticket id, result
   * `invalid` and the token cut to 64 characters; the reply is a bare `invalid`.
   */
  lemma ScanUnresolved(st: Store, req: ScanRequest, replyTime: nat)
    requires Resolve(st.tickets, NormalizedToken(req)).None?
    ensures var r := Scan(st, req, replyTime);
      && r.reply == ReplyInvalid
      && Last(r.store).ticketId == None
      && Last(r.store).result == Invalid
      && Last(r.store).rawToken == NormalizedToken(req)[..Min(MaxUnresolvedTokenLength, |NormalizedToken(req)|)]
      && Last(r.store).deviceInfo == DeviceInfo(req)
  {
  }

  /** An empty or all-blank token is `invalid` whatever the store holds. */
  lemma ScanBlankToken(st: Store, req: ScanRequest, replyTime: nat)
    requires AllWhiteSpace(req.token.GetOr(""))
    ensures var r := Scan(st, req, replyTime);
      r.reply == ReplyInvalid && Last(r.store).ticketId == None && Last(r.store).rawToken == ""
  {
    TrimEmptyIff(req.token.GetOr(""));
  }

  /** Two tokens that resolve to nothing get identical replies: no oracle for guessing. */
  lemma UnresolvedRepliesAgree(st: Store, req1: ScanRequest, req2: ScanRequest, t1: nat, t2: nat)
    requires Resolve(st.tickets, NormalizedToken(req1)).None?
    requires Resolve(st.tickets, NormalizedToken(req2)).None?
    ensures Scan(st, req1, t1).reply == Scan(st, req2, t2).reply
    ensures TypeField(Scan(st, req1, t1).reply) == None
  {
  }

  /** A voided ticket is reported `voided` with its type, even when it was admitted before. */
  lemma ScanVoidedTicket(st: Store, req: ScanRequest, replyTime: nat, i: nat)
    requires i < |st.tickets| && UniqueTokens(st.tickets)
    requires NormalizedToken(req) == st.tickets[i].token != ""
    requires st.tickets[i].status == Status.Voided
    ensures var r := Scan(st, req, replyTime);
      && r.reply == ReplyVoided(st.tickets[i].ticketType)
      && Last(r.store).ticketId == Some(st.tickets[i].id)
      && Last(r.store).result == ScanResult.Voided
      && Last(r.store).deviceInfo == DeviceInfo(req)
  {
    AdjudicateResolved(st, req, replyTime, i);
  }

  /**
   * An active ticket that was admitted before is refused: the attempt is logged as
   * `invalid` with the device marked as blocked, and the reply is `used` with the
   * time of the earliest valid scan.
   */
  lemma ScanBlockedRescan(st: Store, req: ScanRequest, replyTime: nat, i: nat)
    requires i < |st.tickets| && UniqueTokens(st.tickets)
    requires NormalizedToken(req) == st.tickets[i].token != ""
    requires st.tickets[i].status == Active
    requires Consumed(st.scans, st.tickets[i].id)
    ensures var r := Scan(st, req, replyTime);
      && r.reply.ReplyUsed?
      && r.reply.ticketType == st.tickets[i].ticketType
      && (exists k :: 0 <= k < |st.scans| && IsValidScanOf(st.scans[k], st.tickets[i].id)
                      && st.scans[k].scannedAt == r.reply.firstScanned)
      && (forall k :: 0 <= k < |st.scans| && IsValidScanOf(st.scans[k], st.tickets[i].id)
                      ==> r.reply.firstScanned <= st.scans[k].scannedAt)
      && Last(r.store).ticketId == Some(st.tickets[i].id)
      && Last(r.store).result == Invalid
      && Last(r.store).deviceInfo == Some(BlockedDeviceInfo(DeviceInfo(req)))
  {
    AdjudicateResolved(st, req, replyTime, i);
    var first := FirstValidScan(st.scans, st.tickets[i].id);
    assert first.Some?;
  }

  /** An active ticket never admitted before is admitted, and is consumed afterwards. */
  lemma ScanFirstAdmission(st: Store, req: ScanRequest, replyTime: nat, i: nat)
    requires i < |st.tickets| && UniqueTokens(st.tickets)
    requires NormalizedToken(req) == st.tickets[i].token != ""
    requires st.tickets[i].status == Active
    requires !Consumed(st.scans, st.tickets[i].id)
    ensures var r := Scan(st, req, replyTime);
      && r.reply == ReplyValid(st.tickets[i].ticketType, replyTime)
      && Last(r.store).ticketId == Some(st.tickets[i].id)
      && Last(r.store).result == Valid
      && Last(r.store).deviceInfo == DeviceInfo(req)
      && Consumed(r.store.scans, st.tickets[i].id)
  {
    AdjudicateResolved(st, req, replyTime, i);
    var rec := Adjudicate(st, req, replyTime).record;
    assert IsValidScanOf(rec, st.tickets[i].id);
    ConsumedAppend(st.scans, rec, st.tickets[i].id);
  }

  // ----- Invariants and traces -----

  /** The record is one the invariant admits after the log `st.scans`. */
  predicate Fits(st: Store, rec: ScanRecord)
  {
    && rec.id == |st.scans| + 1
    && rec.scannedAt == st.clock
    && (rec.ticketId.Some? ==> 1 <= rec.ticketId.value <= |st.tickets|
                               && rec.rawToken == st.tickets[rec.ticketId.value - 1].token)
    && (rec.ticketId.None? ==> rec.result == Invalid && |rec.rawToken| <= MaxUnresolvedTokenLength)
    && (rec.result == Valid ==> rec.ticketId.Some? && !Consumed(st.scans, rec.ticketId.value))
  }

  /** Every decision appends a record the invariant admits. */
  lemma AdjudicatedRecordFits(st: Store, req: ScanRequest, replyTime: nat)
    requires TicketIds(st.tickets)
    ensures Fits(st, Adjudicate(st, req, replyTime).record)
  {
    var token := NormalizedToken(req);
    var rec := Adjudicate(st, req, replyTime).record;
    match Resolve(st.tickets, token)
    case None =>
      assert rec.rawToken == SliceTo(token, MaxUnresolvedTokenLength);
    case Some(i) =>
      assert st.tickets[i].id == i + 1;
      assert rec.ticketId == Some(i + 1) && rec.rawToken == token;
      if rec.result == Valid {
        assert FirstValidScan(st.scans, i + 1).None?;
      }
  }

  lemma AppendKeepsRefs(st: Store, rec: ScanRecord)
    requires ScanRefs(st.tickets, st.scans) && Fits(st, rec)
    ensures ScanRefs(st.tickets, st.scans + [rec])
  {
    var s := st.scans + [rec];
    forall k | 0 <= k < |s|
      ensures match s[k].ticketId
        case Some(id) => 1 <= id <= |st.tickets| && s[k].rawToken == st.tickets[id - 1].token
        case None => s[k].result == Invalid && |s[k].rawToken| <= MaxUnresolvedTokenLength
    {
      if k < |st.scans| {
        assert s[k] == st.scans[k];
      }
    }
  }

  lemma AppendKeepsSingleAdmission(st: Store, rec: ScanRecord)
    requires SingleAdmission(st.scans) && Fits(st, rec)
    ensures SingleAdmission(st.scans + [rec])
  {
    var s := st.scans + [rec];
    var n := |st.scans|;
    forall j, k | 0 <= j < k < |s| && s[j].result == Valid && s[k].result == Valid
      ensures s[j].ticketId != s[k].ticketId
    {
      assert s[j] == st.scans[j];
      if k == n && s[j].ticketId == rec.ticketId {
        assert IsValidScanOf(st.scans[j], rec.ticketId.value);
      }
    }
  }

  lemma AppendKeepsWellFormed(st: Store, rec: ScanRecord)
    requires WellFormed(st) && Fits(st, rec)
    ensures WellFormed(Append(st, rec))
  {
    AppendKeepsRefs(st, rec);
    AppendKeepsSingleAdmission(st, rec);
    var s := st.scans + [rec];
    assert forall k :: 0 <= k < |st.scans| ==> s[k] == st.scans[k];
  }

  /** A scan keeps every constraint of the store, in particular at-most-once admission. */
  lemma ScanPreservesWellFormed(st: Store, req: ScanRequest, replyTime: nat)
    requires WellFormed(st)
    ensures WellFormed(Scan(st, req, replyTime).store)
  {
    AdjudicatedRecordFits(st, req, replyTime);
    AppendKeepsWellFormed(st, Adjudicate(st, req, replyTime).record);
  }

  /** Scanning one ticket never admits another: tickets are adjudicated independently. */
  lemma ScanLeavesOtherTickets(st: Store, req: ScanRequest, replyTime: nat, i: nat, other: nat)
    requires UniqueTokens(st.tickets)
    requires i < |st.tickets| && NormalizedToken(req) == st.tickets[i].token
    requires other != st.tickets[i].id
    ensures Consumed(Scan(st, req, replyTime).store.scans, other) <==> Consumed(st.scans, other)
  {
    var rec := Adjudicate(st, req, replyTime).record;
    if NormalizedToken(req) != "" {
      ResolveOwnToken(st.tickets, i);
    }
    assert !IsValidScanOf(rec, other);
    ConsumedAppend(st.scans, rec, other);
  }

  /**
   * Retrying is safe: right after an admission, a second scan of the same token
   * is refused with `used`, and its `firstScanned` is the admission's stored time.
   */
  lemma RescanAfterAdmission(st: Store, req: ScanRequest, again: ScanRequest, t1: nat, t2: nat, i: nat)
    requires WellFormed(st)
    requires i < |st.tickets|
    requires NormalizedToken(req) == st.tickets[i].token != ""
    requires NormalizedToken(again) == st.tickets[i].token
    requires st.tickets[i].status == Active
    requires !Consumed(st.scans, st.tickets[i].id)
    ensures Scan(st, req, t1).reply == ReplyValid(st.tickets[i].ticketType, t1)
    ensures Scan(Scan(st, req, t1).store, again, t2).reply == ReplyUsed(st.tickets[i].ticketType, st.clock)
  {
    ScanFirstAdmission(st, req, t1, i);
    var s1 := Scan(st, req, t1).store;
    var id := st.tickets[i].id;
    ScanPreservesWellFormed(st, req, t1);
    AtMostOnce(s1.scans, id);
    ScanBlockedRescan(s1, again, t2, i);
  }

  /** A run of scan requests, each stamped with its own reply time. */
  function RunScans(st: Store, reqs: seq<ScanRequest>, replyTimes: seq<nat>): Store
    requires |replyTimes| == |reqs|
    decreases |reqs|
  {
    if |reqs| == 0 then st
    else RunScans(Scan(st, reqs[0], replyTimes[0]).store, reqs[1..], replyTimes[1..])
  }

  /**
   * The audit trail is complete: a run of n scans appends exactly n records and
   * keeps every earlier record and every ticket.
   */
  lemma {:induction false} AuditTrailComplete(st: Store, reqs: seq<ScanRequest>, replyTimes: seq<nat>)
    requires |replyTimes| == |reqs|
    ensures var s' := RunScans(st, reqs, replyTimes);
      && |s'.scans| == |st.scans| + |reqs|
      && s'.scans[..|st.scans|] == st.scans
      && s'.tickets == st.tickets
    decreases |reqs|
  {
    if |reqs| > 0 {
      var s1 := Scan(st, reqs[0], replyTimes[0]).store;
      AuditTrailComplete(s1, reqs[1..], replyTimes[1..]);
      var s' := RunScans(s1, reqs[1..], replyTimes[1..]);
      assert s' == RunScans(st, reqs, replyTimes);
      assert s'.scans[..|st.scans|] == s'.scans[..|s1.scans|][..|st.scans|] == s1.scans[..|st.scans|];
    }
  }

  /** Every run of scans keeps the store well formed. */
  lemma {:induction false} RunScansWellFormed(st: Store, reqs: seq<ScanRequest>, replyTimes: seq<nat>)
    requires |replyTimes| == |reqs|
    requires WellFormed(st)
    ensures WellFormed(RunScans(st, reqs, replyTimes))
    decreases |reqs|
  {
    if |reqs| > 0 {
      var s1 := Scan(st, reqs[0], replyTimes[0]).store;
      ScanPreservesWellFormed(st, reqs[0], replyTimes[0]);
      RunScansWellFormed(s1, reqs[1..], replyTimes[1..]);
      assert RunScans(st, reqs, replyTimes) == RunScans(s1, reqs[1..], replyTimes[1..]);
    }
  }

  /** At-most-once admission over any run of scans: each ticket has at most one `valid` record. */
  lemma AtMostOnceAdmission(st: Store, reqs: seq<ScanRequest>, replyTimes: seq<nat>, ticketId: nat)
    requires |replyTimes| == |reqs|
    requires WellFormed(st)
    ensures CountValid(RunScans(st, reqs, replyTimes).scans, ticketId) <= 1
  {
    RunScansWellFormed(st, reqs, replyTimes);
    AtMostOnce(RunScans(st, reqs, replyTimes).scans, ticketId);
  }
}

=== FILE: scanner_client.dfy ===
/**
 * The browser side of scanning: turning decoded QR text into a token, classifying
 * the server's reply into one of three result cards, the `isProcessing` flag that
 * ignores decodes while a scan is being handled, and the auto-dismiss timer.
 */
module ScannerClient {
  import opened Wrappers
  import opened JsString

  // ----- Token extraction -----

  /** `url.pathname.split('/').filter(Boolean)`. */
  function PathSegments(pathname: string): (parts: seq<string>)
    ensures forall k :: 0 <= k < |parts| ==> parts[k] != "" && '/' !in parts[k]
  {
    var pieces := Split(pathname, '/');
    var parts := NonEmpty(pieces);
    assert forall k :: 0 <= k < |parts| ==> parts[k] in pieces;
    assert forall x :: x in pieces ==> '/' !in x;
    parts
  }

  /** A piece with no `/` is one segment, or none when it is empty. */
  lemma PathSegmentsOfPiece(x: string)
    requires '/' !in x
    ensures PathSegments(x) == if x == "" then [] else [x]
  {
    assert IndexOf(x, '/').None?;
    assert Split(x, '/') == [x];
  }

  /** The segments of `a/b` are those of `a` followed by those of `b`: order is kept. */
  lemma PathSegmentsAppend(a: string, b: string)
    ensures PathSegments(a + "/" + b) == PathSegments(a) + PathSegments(b)
  {
    SplitAppend(a, b, '/');
    NonEmptyAppend(Split(a, '/'), Split(b, '/'));
  }

  /**
   * The token sent for decoded QR text. `pathname` is the path `new URL(text)`
   * parses out, or None when the text is not a URL and the constructor throws.
   * A path whose first two segments are `t` and `<token>` gives `<token>`;
   * anything else keeps the trimmed text.
   */
  function ExtractToken(decodedText: string, pathname: Option<string>): (token: string)
    ensures token == Trim(decodedText) || (pathname.Some? && token in PathSegments(pathname.value))
    ensures IsTicketPath(pathname) ==> token == PathSegments(pathname.value)[1]
    ensures !IsTicketPath(pathname) ==> token == Trim(decodedText)
  {
    var token := Trim(decodedText);
    match pathname
    case None => token
    case Some(path) =>
      var parts := PathSegments(path);
      if |parts| >= 2 && parts[0] == "t" && parts[1] != "" then parts[1] else token
  }

  /** `parts[0] === 't' && parts[1]`: the segments never hold an empty string, so the second test always passes. */
  predicate IsTicketPath(pathname: Option<string>)
  {
    pathname.Some? && |PathSegments(pathname.value)| >= 2 && PathSegments(pathname.value)[0] == "t"
  }

  /** The path of a ticket link: `/t/` followed by the token. */
  function TicketPath(token: string): string
  {
    "/t/" + token
  }

  /** The segments of `t/<token>`. */
  lemma SegmentsOfTicket(token: string)
    requires token != "" && '/' !in token
    ensures PathSegments("t" + "/" + token) == ["t", token]
  {
    PathSegmentsOfPiece("t");
    PathSegmentsOfPiece(token);
    PathSegmentsAppend("t", token);
  }

  /** The segments of a ticket link's path: `t`, then the token. */
  lemma SegmentsOfTicketLink(token: string)
    requires token != "" && '/' !in token
    ensures PathSegments(TicketPath(token)) == ["t", token]
  {
    assert TicketPath(token) == "" + "/" + ("t" + "/" + token);
    PathSegmentsOfPiece("");
    SegmentsOfTicket(token);
    PathSegmentsAppend("", "t" + "/" + token);
  }

  /**
   * A ticket link's path is read back as its token, whatever the rest of the
   * decoded text is and whatever further segments follow the token.
   */
  lemma ExtractFromTicketPath(decodedText: string, token: string, rest: string)
    requires token != "" && '/' !in token
    requires rest == "" || rest[0] == '/'
    ensures ExtractToken(decodedText, Some(TicketPath(token) + rest)) == token
  {
    var path := TicketPath(token) + rest;
    SegmentsOfTicketLink(token);
    if rest == "" {
      assert path == TicketPath(token);
    } else {
      assert path == TicketPath(token) + "/" + rest[1..];
      PathSegmentsAppend(TicketPath(token), rest[1..]);
    }
    assert IsTicketPath(Some(path));
  }

  /** Text that is not a URL is sent trimmed. */
  lemma ExtractFromPlainText(decodedText: string)
    ensures ExtractToken(decodedText, None) == Trim(decodedText)
  {
  }

  /** A path that does not start with the segment `t`, or has nothing after it, keeps the trimmed text. */
  lemma ExtractFromOtherPath(decodedText: string, pathname: string)
    requires var parts := PathSegments(pathname); |parts| < 2 || parts[0] != "t"
    ensures ExtractToken(decodedText, Some(pathname)) == Trim(decodedText)
  {
  }

  // ----- Result classification -----

  /** The three result cards. */
  datatype Display = ShowValid | ShowVoided | ShowInvalid

  /** The reply body as the client sees it: its `result` and `type` fields, when present. */
  datatype ReplyData = ReplyData(result: Option<string>, ticketType: Option<string>)

  datatype ResultCard = ResultCard(display: Display, typeLine: string)

  /** `data.type ? `${data.type} Ticket` : ''`. */
  function TypeLine(ticketType: Option<string>): string
  {
    match ticketType
    case Some(t) => if t == "" then "" else t + " Ticket"
    case None => ""
  }

  /** `showResult(data)`: only `valid` and `voided` have cards of their own; everything else is INVALID. */
  function ShowResult(data: ReplyData): (card: ResultCard)
    ensures card.display == ShowValid <==> data.result == Some("valid")
    ensures card.display == ShowVoided <==> data.result == Some("voided")
    ensures card.display == ShowInvalid ==> card.typeLine == ""
  {
    if data.result == Some("valid") then ResultCard(ShowValid, TypeLine(data.ticketType))
    else if data.result == Some("voided") then ResultCard(ShowVoided, TypeLine(data.ticketType))
    else ResultCard(ShowInvalid, "")
  }

  /** The server's `used` reply is shown as INVALID. */
  lemma UsedShowsInvalid(ticketType: Option<string>)
    ensures ShowResult(ReplyData(Some("used"), ticketType)).display == ShowInvalid
  {
  }

  // ----- The request cycle and the isProcessing guard -----

  /**
   * How the `fetch` ended: HTTP 401, HTTP 429, a body that parsed as JSON
   * (None when `resp.json()` throws), or a network failure.
   */
  datatype FetchOutcome = Unauthorized | TooManyRequests | Responded(body: Option<ReplyData>) | NetworkError

  /** `isProcessing`, the visible card (None when the overlay is hidden), and whether the page left for the login form. */
  datatype ClientState = ClientState(isProcessing: bool, card: Option<ResultCard>, toLogin: bool)

  datatype DecodeStep = DecodeStep(state: ClientState, request: Option<string>)

  /** `onScanSuccess` up to the request: ignored while a scan is processing, else it sends the token. */
  function OnDecode(cs: ClientState, decodedText: string, pathname: Option<string>): (r: DecodeStep)
    ensures cs.isProcessing ==> r.state == cs && r.request.None?
    ensures !cs.isProcessing ==> r.state.isProcessing && r.request == Some(ExtractToken(decodedText, pathname))
  {
    if cs.isProcessing then DecodeStep(cs, None)
    else DecodeStep(cs.(isProcessing := true), Some(ExtractToken(decodedText, pathname)))
  }

  /** The card a finished request shows; a 401 shows none and sends the page to the login form. */
  function CardFor(outcome: FetchOutcome): Option<ResultCard>
  {
    match outcome
    case Unauthorized => None
    case TooManyRequests => Some(ShowResult(ReplyData(Some("invalid"), None)))
    case Responded(Some(data)) => Some(ShowResult(data))
    case Responded(None) => Some(ShowResult(ReplyData(Some("invalid"), None)))
    case NetworkError => Some(ShowResult(ReplyData(Some("invalid"), None)))
  }

  /** The rest of `onScanSuccess`: show the card; `isProcessing` stays set until the card is dismissed. */
  function OnFetchDone(cs: ClientState, outcome: FetchOutcome): (r: ClientState)
    ensures r.isProcessing == cs.isProcessing
    ensures outcome == Unauthorized ==> r.toLogin && r.card == cs.card
    ensures outcome != Unauthorized ==> r.card.Some? && r.toLogin == cs.toLogin
    ensures outcome.Responded? && outcome.body.Some? ==> r.card == Some(ShowResult(outcome.body.value))
  {
    match CardFor(outcome)
    case None => cs.(toLogin := true)
    case Some(card) => cs.(card := Some(card))
  }

  /** A rate-limited, unparsable or failed request shows INVALID. */
  lemma FailuresShowInvalid(cs: ClientState, outcome: FetchOutcome)
    requires outcome == TooManyRequests || outcome == Responded(None) || outcome == NetworkError
    ensures OnFetchDone(cs, outcome).card == Some(ResultCard(ShowInvalid, ""))
  {
  }

  /** `dismissResult`, by a tap or after four seconds: hide the card and accept the next scan. */
  function Dismiss(cs: ClientState): (r: ClientState)
    ensures !r.isProcessing && r.card.None?
    ensures r.toLogin == cs.toLogin
  {
    cs.(isProcessing := false, card := None)
  }

  datatype ClientEvent = Decoded(text: string, pathname: Option<string>) | FetchDone(outcome: FetchOutcome) | Dismissed

  /** Runs the client over a sequence of events; returns the final state and the tokens it sent. */
  function Run(cs: ClientState, events: seq<ClientEvent>): (ClientState, seq<string>)
    decreases |events|
  {
    if |events| == 0 then (cs, [])
    else
      match events[0]
      case Decoded(text, pathname) =>
        var step := OnDecode(cs, text, pathname);
        var (final, sent) := Run(step.state, events[1..]);
        (final, (if step.request.Some? then [step.request.value] else []) + sent)
      case FetchDone(outcome) => Run(OnFetchDone(cs, outcome), events[1..])
      case Dismissed => Run(Dismiss(cs), events[1..])
  }

  predicate NoDismissal(events: seq<ClientEvent>)
  {
    forall k :: 0 <= k < |events| ==> !events[k].Dismissed?
  }

  /**
   * Until a dismissal, at most one token is sent, and none at all when a scan is
   * already processing. What a dismissal may interrupt is the subject of the timer
   * section below.
   */
  lemma {:induction false} OneRequestUntilDismissed(cs: ClientState, events: seq<ClientEvent>)
    requires NoDismissal(events)
    ensures |Run(cs, events).1| <= (if cs.isProcessing then 0 else 1)
    ensures cs.isProcessing ==> Run(cs, events).0.isProcessing
    decreases |events|
  {
    if |events| > 0 {
      assert NoDismissal(events[1..]) by {
        forall k | 0 <= k < |events[1..]| ensures !events[1..][k].Dismissed? {
          assert events[1..][k] == events[k + 1];
        }
      }
      match events[0]
      case Decoded(text, pathname) =>
        OneRequestUntilDismissed(OnDecode(cs, text, pathname).state, events[1..]);
      case FetchDone(outcome) =>
        OneRequestUntilDismissed(OnFetchDone(cs, outcome), events[1..]);
      case Dismissed =>
        assert false;
    }
  }

  // ----- The auto-dismiss timer -----

  /**
   * The guard with the four-second timer made explicit: `isProcessing`, how many
   * requests are in flight, whether the card is visible (so a tap reaches
   * `dismissResult`), and whether the timer `showResult` armed is still pending.
   */
  datatype GuardState = GuardState(isProcessing: bool, inFlight: nat, cardShown: bool, timerArmed: bool)

  /**
   * A decode, a response that shows a card (which clears the previous timer and
   * arms a new one), a tap on the card, and the pending timer firing.
   */
  datatype GuardEvent = Decode | Respond | Tap | TimerFires

  function GuardInitial(): GuardState
  {
    GuardState(false, 0, false, false)
  }

  /** One event as written: `dismissResult` hides the card and clears the flag, but leaves the timer pending. */
  function GuardStepAsWritten(g: GuardState, e: GuardEvent): (r: GuardState)
    ensures e == Tap && g.cardShown ==> !r.isProcessing && !r.cardShown && r.timerArmed == g.timerArmed
  {
    match e
    case Decode => if g.isProcessing then g else g.(isProcessing := true, inFlight := g.inFlight + 1)
    case Respond => if g.inFlight == 0 then g else g.(inFlight := g.inFlight - 1, cardShown := true, timerArmed := true)
    case Tap => if g.cardShown then g.(isProcessing := false, cardShown := false) else g
    case TimerFires => if g.timerArmed then g.(isProcessing := false, cardShown := false, timerArmed := false) else g
  }

  /** One event with the timer cleared on every dismissal (`clearTimeout(clearTimer)` in `dismissResult`). */
  function GuardStep(g: GuardState, e: GuardEvent): (r: GuardState)
    ensures e == Tap && g.cardShown ==> !r.isProcessing && !r.cardShown && !r.timerArmed
  {
    match e
    case Tap => if g.cardShown then g.(isProcessing := false, cardShown := false, timerArmed := false) else g
    case _ => GuardStepAsWritten(g, e)
  }

  function ReplayAsWritten(g: GuardState, events: seq<GuardEvent>): GuardState
    decreases |events|
  {
    if |events| == 0 then g else ReplayAsWritten(GuardStepAsWritten(g, events[0]), events[1..])
  }

  function Replay(g: GuardState, events: seq<GuardEvent>): GuardState
    decreases |events|
  {
    if |events| == 0 then g else Replay(GuardStep(g, events[0]), events[1..])
  }

  /**
   * At most one request in flight; while one is, the flag is set and neither a
   * card nor a timer is pending; when the flag is clear, nothing is pending at all.
   */
  predicate OneInFlight(g: GuardState)
  {
    && g.inFlight <= 1
    && (g.inFlight == 1 ==> g.isProcessing && !g.cardShown && !g.timerArmed)
    && (!g.isProcessing ==> g.inFlight == 0 && !g.cardShown && !g.timerArmed)
  }

  lemma GuardStepKeepsOneInFlight(g: GuardState, e: GuardEvent)
    requires OneInFlight(g)
    ensures OneInFlight(GuardStep(g, e))
  {
  }

  /** With the timer cleared on dismissal, no sequence of events ever has two requests in flight. */
  lemma {:induction false} ReplayKeepsOneInFlight(g: GuardState, events: seq<GuardEvent>)
    requires OneInFlight(g)
    ensures OneInFlight(Replay(g, events))
    ensures Replay(g, events).inFlight <= 1
    decreases |events|
  {
    if |events| > 0 {
      GuardStepKeepsOneInFlight(g, events[0]);
      ReplayKeepsOneInFlight(GuardStep(g, events[0]), events[1..]);
    }
  }

  /** The page starts with nothing in flight. */
  lemma GuardInitialOneInFlight()
    ensures OneInFlight(GuardInitial())
  {
  }

  /**
   * As written, a stale timer breaks the guard: scan, tap the card away, scan
   * again, and let the first card's timer fire while the second request is
   * pending; the next decode sends a second concurrent request. With the timer
   * cleared on dismissal the same events leave one request in flight.
   */
  lemma StaleTimerSecondRequest()
    ensures ReplayAsWritten(GuardInitial(), [Decode, Respond, Tap, Decode, TimerFires, Decode]).inFlight == 2
    ensures Replay(GuardInitial(), [Decode, Respond, Tap, Decode, TimerFires, Decode]).inFlight == 1
  {
    var events := [Decode, Respond, Tap, Decode, TimerFires, Decode];
    var g0 := GuardInitial();
    var a1 := GuardStepAsWritten(g0, Decode);
    var a2 := GuardStepAsWritten(a1, Respond);
    var a3 := GuardStepAsWritten(a2, Tap);
    var a4 := GuardStepAsWritten(a3, Decode);
    var a5 := GuardStepAsWritten(a4, TimerFires);
    var a6 := GuardStepAsWritten(a5, Decode);
    assert a6.inFlight == 2;
    assert events[1..] == [Respond, Tap, Decode, TimerFires, Decode];
    assert events[2..] == [Tap, Decode, TimerFires, Decode];
    assert events[3..] == [Decode, TimerFires, Decode];
    assert events[4..] == [TimerFires, Decode];
    assert events[5..] == [Decode];
    assert ReplayAsWritten(g0, events) == a6;
    var b3 := GuardStep(a2, Tap);
    var b4 := GuardStep(b3, Decode);
    var b5 := GuardStep(b4, TimerFires);
    var b6 := GuardStep(b5, Decode);
    assert Replay(g0, events) == b6;
  }
}

=== FILE: scenario.dfy ===
/**
 * End-to-end properties across the modules: what the operator sees for what the
 * ledger records, a ticket link scanned from its QR code, and the issue, scan,
 * rescan and void walk-through.
 */
module Scenario {
  import opened Wrappers
  import opened JsString
  import opened Schema
  import opened ScanRoute
  import opened AdminRoutes
  import opened ScannerClient

  /** The JSON body of a scan reply as the client parses it. */
  function ReplyJson(r: ScanReply): ReplyData
  {
    ReplyData(Some(ResultField(r)), TypeField(r))
  }

  /** The card the operator sees for each reply: a type line only on VALID and VOIDED. */
  lemma CardOfReply(r: ScanReply)
    ensures ShowResult(ReplyJson(r)) ==
      match r
      case ReplyValid(ty, _) => ResultCard(ShowValid, TypeName(ty) + " Ticket")
      case ReplyVoided(ty) => ResultCard(ShowVoided, TypeName(ty) + " Ticket")
      case _ => ResultCard(ShowInvalid, "")
  {
    assert "invalid" != "valid" && "used" != "valid" && "invalid" != "voided" && "used" != "voided";
  }

  /**
   * The card follows the ledger: VALID exactly when the appended record is `valid`,
   * VOIDED exactly when it is `voided`, INVALID otherwise (so also for `used`).
   */
  lemma CardFollowsLedger(st: Store, req: ScanRequest, replyTime: nat, cs: ClientState)
    ensures var r := Scan(st, req, replyTime);
      var shown := OnFetchDone(cs, Responded(Some(ReplyJson(r.reply)))).card;
      && shown.Some?
      && (shown.value.display == ShowValid <==> r.store.scans[|st.scans|].result == Valid)
      && (shown.value.display == ShowVoided <==> r.store.scans[|st.scans|].result == ScanResult.Voided)
      && (shown.value.display == ShowInvalid <==> r.store.scans[|st.scans|].result == Invalid)
  {
    CardOfReply(Scan(st, req, replyTime).reply);
  }

  /** nanoid's default alphabet `A-Za-z0-9_-`. */
  predicate InTokenAlphabet(c: char)
  {
    ('A' <= c <= 'Z') || ('a' <= c <= 'z') || ('0' <= c <= '9') || c == '_' || c == '-'
  }

  /** What the token generator returns: 32 characters of the URL-safe alphabet. */
  predicate IsGeneratedToken(s: string)
  {
    |s| == 32 && forall i :: 0 <= i < |s| ==> InTokenAlphabet(s[i])
  }

  /** A generated token survives trimming and contains no path separator. */
  lemma GeneratedTokenShape(token: string)
    requires IsGeneratedToken(token)
    ensures Trim(token) == token
    ensures token != "" && '/' !in token
  {
    assert Trimmed(token) by {
      assert InTokenAlphabet(token[0]) && InTokenAlphabet(token[|token| - 1]);
    }
    TrimOfPadded([], token, []);
    assert [] + token + [] == token;
  }

  /** The request the client sends for decoded text. */
  function RequestFor(token: string, userAgent: Option<string>, username: Option<string>): ScanRequest
  {
    ScanRequest(Some(token), userAgent, username)
  }

  /** The token read from a ticket link is the ticket's own token once the server trims it. */
  lemma TicketLinkRequest(text: string, token: string, ua: Option<string>, user: Option<string>)
    requires IsGeneratedToken(token)
    ensures NormalizedToken(RequestFor(ExtractToken(text, Some(TicketPath(token))), ua, user)) == token
  {
    GeneratedTokenShape(token);
    ExtractFromTicketPath(text, token, "");
    assert TicketPath(token) + "" == TicketPath(token);
  }

  /**
   * Scanning the QR code of an active, never admitted ticket shows VALID with its
   * type; scanning it again right after shows INVALID, and the reply says `used`
   * with the time of the first scan.
   */
  lemma TicketLinkAdmitsOnce(st: Store, i: nat, text1: string, text2: string, ua: Option<string>,
                             user: Option<string>, t1: nat, t2: nat)
    requires WellFormed(st)
    requires i < |st.tickets| && IsGeneratedToken(st.tickets[i].token)
    requires st.tickets[i].status == Active
    requires !Consumed(st.scans, st.tickets[i].id)
    ensures var token := ExtractToken(text1, Some(TicketPath(st.tickets[i].token)));
      var first := Scan(st, RequestFor(token, ua, user), t1);
      var token2 := ExtractToken(text2, Some(TicketPath(st.tickets[i].token)));
      var second := Scan(first.store, RequestFor(token2, ua, user), t2);
      && ShowResult(ReplyJson(first.reply)) == ResultCard(ShowValid, TypeName(st.tickets[i].ticketType) + " Ticket")
      && second.reply == ReplyUsed(st.tickets[i].ticketType, st.clock)
      && ShowResult(ReplyJson(second.reply)).display == ShowInvalid
  {
    var tok := st.tickets[i].token;
    var req := RequestFor(ExtractToken(text1, Some(TicketPath(tok))), ua, user);
    var again := RequestFor(ExtractToken(text2, Some(TicketPath(tok))), ua, user);
    TicketLinkRequest(text1, tok, ua, user);
    TicketLinkRequest(text2, tok, ua, user);
    GeneratedTokenShape(tok);
    RescanAfterAdmission(st, req, again, t1, t2, i);
    var first := Scan(st, req, t1);
    CardOfReply(first.reply);
    CardOfReply(Scan(first.store, again, t2).reply);
  }

  /** A token generator whose first two calls return two different generated tokens. */
  predicate TwoFreshTokens(gen: nat -> string)
  {
    IsGeneratedToken(gen(0)) && IsGeneratedToken(gen(1)) && gen(0) != gen(1)
  }

  lemma FormCountOne()
    ensures FormCount(Some("1")) == 1
  {
    FormCountReadsInteger(1);
    assert IntToString(1) == "1";
  }

  /** The store after issuing one VIP and one General ticket into an empty store. */
  function Issued(gen: nat -> string): Store
  {
    Store([Ticket(1, gen(0), VIP, Active, 0), Ticket(2, gen(1), General, Active, 0)], [], 0)
  }

  lemma IssuedWellFormed(gen: nat -> string)
    requires gen(0) != gen(1)
    ensures WellFormed(Issued(gen))
  {
    var t := Issued(gen).tickets;
    assert UniqueTokens(t) by {
      forall i, j | 0 <= i < j < |t| ensures t[i].token != t[j].token {
        assert i == 0 && j == 1;
      }
    }
  }

  lemma IssueOneOfEach(gen: nat -> string)
    requires gen(0) != gen(1)
    ensures Generate(EmptyStore(), GenerateForm(Some("1"), Some("1")), gen) == GenerateStep(Issued(gen), Created)
    ensures WellFormed(Issued(gen))
  {
    IssuedWellFormed(gen);
    FormCountOne();
    IssueTwo(gen);
  }

  lemma IssueTwo(gen: nat -> string)
    requires gen(0) != gen(1)
    ensures Issue(EmptyStore(), 1, 1, gen) == GenerateStep(Issued(gen), Created)
  {
    FreshPair(gen);
    IssuedTokens(EmptyStore(), 1, 1, gen);
    BatchPair(gen);
    assert [] + Issued(gen).tickets == Issued(gen).tickets;
  }

  lemma FreshPair(gen: nat -> string)
    requires gen(0) != gen(1)
    ensures FreshTokens([], BatchTokens(gen, 2))
  {
    var tokens := BatchTokens(gen, 2);
    assert tokens[0] != tokens[1];
  }

  lemma BatchPair(gen: nat -> string)
    ensures Batch(1, BatchTokens(gen, 2), 1, 0) == Issued(gen).tickets
  {
    var b := Batch(1, BatchTokens(gen, 2), 1, 0);
    var want := Issued(gen).tickets;
    assert |b| == 2 && b[0] == want[0] && b[1] == want[1];
  }

  /**
   * The walk-through: issue one VIP and one General ticket; the VIP ticket is
   * admitted once and then reported used with the first scan's time; the General
   * ticket, once voided, is reported voided and is never admitted.
   */
  lemma IssueScanVoidWalkthrough(gen: nat -> string, ua: Option<string>, user: Option<string>, t1: nat, t2: nat, t3: nat)
    requires TwoFreshTokens(gen)
    ensures var issued := Generate(EmptyStore(), GenerateForm(Some("1"), Some("1")), gen);
      var s1 := Scan(issued.store, RequestFor(gen(0), ua, user), t1);
      var s2 := Scan(s1.store, RequestFor(gen(0), ua, user), t2);
      var voided := ToggleVoid(s2.store, gen(1));
      var s3 := Scan(voided.store, RequestFor(gen(1), ua, user), t3);
      && issued.outcome == Created
      && s1.reply == ReplyValid(VIP, t1)
      && s2.reply == ReplyUsed(VIP, 0)
      && s3.reply == ReplyVoided(General)
      && CountValid(s3.store.scans, 2) == 0
  {
    IssueOneOfEach(gen);
    FirstTwoScans(gen, ua, user, t1, t2);
    var s2 := Scan(Scan(Issued(gen), RequestFor(gen(0), ua, user), t1).store, RequestFor(gen(0), ua, user), t2).store;
    CountValidZero(s2.scans, 2);
    GeneratedTokenShape(gen(1));
    var req1 := RequestFor(gen(1), ua, user);
    assert NormalizedToken(req1) == gen(1);
    VoidThenScan(s2, req1, t3, 1);
  }

  /** In the issued store the VIP ticket is admitted, then refused as used; the General ticket stays unscanned. */
  lemma FirstTwoScans(gen: nat -> string, ua: Option<string>, user: Option<string>, t1: nat, t2: nat)
    requires TwoFreshTokens(gen)
    ensures var s1 := Scan(Issued(gen), RequestFor(gen(0), ua, user), t1);
      var s2 := Scan(s1.store, RequestFor(gen(0), ua, user), t2);
      && s1.reply == ReplyValid(VIP, t1)
      && s2.reply == ReplyUsed(VIP, 0)
      && WellFormed(s2.store)
      && s2.store.tickets == Issued(gen).tickets
      && !Consumed(s2.store.scans, 2)
  {
    IssueOneOfEach(gen);
    var s0 := Issued(gen);
    GeneratedTokenShape(gen(0));
    var req0 := RequestFor(gen(0), ua, user);
    assert NormalizedToken(req0) == gen(0);
    RescanAfterAdmission(s0, req0, req0, t1, t2, 0);
    var s1 := Scan(s0, req0, t1).store;
    ScanPreservesWellFormed(s0, req0, t1);
    ScanPreservesWellFormed(s1, req0, t2);
    ScanLeavesOtherTickets(s0, req0, t1, 0, 2);
    ScanLeavesOtherTickets(s1, req0, t2, 0, 2);
  }

  /** Voiding an active ticket makes its next scan `voided` and adds no `valid` record for it. */
  lemma VoidThenScan(st: Store, req: ScanRequest, replyTime: nat, i: nat)
    requires WellFormed(st)
    requires i < |st.tickets| && st.tickets[i].status == Active
    requires NormalizedToken(req) == st.tickets[i].token != ""
    ensures var voided := ToggleVoid(st, st.tickets[i].token).store;
      && Scan(voided, req, replyTime).reply == ReplyVoided(st.tickets[i].ticketType)
      && CountValid(Scan(voided, req, replyTime).store.scans, st.tickets[i].id) == CountValid(st.scans, st.tickets[i].id)
  {
    var voided := ToggleVoid(st, st.tickets[i].token).store;
    TogglePreservesWellFormed(st, st.tickets[i].token);
    ScanVoidedTicket(voided, req, replyTime, i);
    var s := Scan(voided, req, replyTime).store.scans;
    assert s[..|s| - 1] == st.scans;
  }

  // ----- The server over any interleaving of requests -----

  /** One thing the server handles: a scan, a generate form, a void toggle, or time passing. */
  datatype ServerEvent =
    | ScanEvent(req: ScanRequest, replyTime: nat)
    | GenerateEvent(form: GenerateForm, gen: nat -> string)
    | ToggleEvent(token: string)
    | TickEvent(elapsed: nat)

  function Serve(st: Store, e: ServerEvent): Store
  {
    match e
    case ScanEvent(req, replyTime) => Scan(st, req, replyTime).store
    case GenerateEvent(form, gen) => Generate(st, form, gen).store
    case ToggleEvent(token) => ToggleVoid(st, token).store
    case TickEvent(elapsed) => Advance(st, elapsed)
  }

  function ServeAll(st: Store, events: seq<ServerEvent>): Store
    decreases |events|
  {
    if |events| == 0 then st else ServeAll(Serve(st, events[0]), events[1..])
  }

  /** Each request keeps every table constraint and the ticket cap. */
  lemma ServePreserves(st: Store, e: ServerEvent)
    requires WellFormed(st) && WithinCap(st)
    ensures WellFormed(Serve(st, e)) && WithinCap(Serve(st, e))
  {
    match e
    case ScanEvent(req, replyTime) => ScanPreservesWellFormed(st, req, replyTime);
    case GenerateEvent(form, gen) =>
      IssuePreservesWellFormed(st, FormCount(form.vipCount), FormCount(form.generalCount), gen);
    case ToggleEvent(token) => TogglePreservesWellFormed(st, token);
    case TickEvent(elapsed) => AdvanceWellFormed(st, elapsed);
  }

  /** Any interleaving of scans, issuance, toggles and time keeps the store well formed and within the cap. */
  lemma {:induction false} ServeAllPreserves(st: Store, events: seq<ServerEvent>)
    requires WellFormed(st) && WithinCap(st)
    ensures WellFormed(ServeAll(st, events)) && WithinCap(ServeAll(st, events))
    decreases |events|
  {
    if |events| > 0 {
      ServePreserves(st, events[0]);
      ServeAllPreserves(Serve(st, events[0]), events[1..]);
    }
  }

  /** From an empty database, no interleaving of requests ever admits a ticket twice. */
  lemma AdmittedAtMostOnce(events: seq<ServerEvent>, ticketId: nat)
    ensures CountValid(ServeAll(EmptyStore(), events).scans, ticketId) <= 1
  {
    EmptyStoreWellFormed();
    ServeAllPreserves(EmptyStore(), events);
    AtMostOnce(ServeAll(EmptyStore(), events).scans, ticketId);
  }
}

=== FILE: schema.dfy ===
/**
 * The two tables the engine works on (`tickets` and `scans`) with their column
 * enums, defaults and constraints, and the invariant a store keeps.
 * Timestamps are readings of an abstract monotone clock; ids are AUTOINCREMENT
 * keys, which here equal position + 1 because rows are never deleted.
 */
module Schema {
  import opened Wrappers

  /** `type IN ('VIP','General')`. */
  datatype TicketType = VIP | General

  /** `status IN ('active','voided')`. */
  datatype Status = Active | Voided

  /** `result IN ('valid','invalid','voided')`. */
  datatype ScanResult = Valid | Invalid | Voided

  datatype Ticket = Ticket(id: nat, token: string, ticketType: TicketType, status: Status, createdAt: nat)

  /** One row of the append-only scan log; `ticketId` is NULL when the token did not resolve. */
  datatype ScanRecord = ScanRecord(
    id: nat,
    ticketId: Option<nat>,
    rawToken: string,
    scannedAt: nat,
    result: ScanResult,
    operator: string,
    deviceInfo: Option<string>)

  datatype Store = Store(tickets: seq<Ticket>, scans: seq<ScanRecord>, clock: nat)

  /** The column default of `scans.operator`. */
  const DefaultOperator: string := "admin"

  /** The longest raw token kept for a scan that resolved to no ticket. */
  const MaxUnresolvedTokenLength: nat := 64

  function TypeName(t: TicketType): string
  {
    match t
    case VIP => "VIP"
    case General => "General"
  }

  /** The row an `INSERT INTO tickets (token, type)` creates: status and creation time take their defaults. */
  function NewTicket(id: nat, token: string, ticketType: TicketType, now: nat): (t: Ticket)
    ensures t.status == Active
  {
    Ticket(id, token, ticketType, Active, now)
  }

  function EmptyStore(): Store
  {
    Store([], [], 0)
  }

  /** The clock moves forward between requests. */
  function Advance(st: Store, elapsed: nat): (r: Store)
    ensures r.tickets == st.tickets && r.scans == st.scans
    ensures r.clock >= st.clock
  {
    st.(clock := st.clock + elapsed)
  }

  // ----- Lookups -----

  /** `SELECT * FROM tickets WHERE token = ?`: the position of the first row with that token. */
  function FindTicket(tickets: seq<Ticket>, token: string): (r: Option<nat>)
    ensures r.Some? ==> r.value < |tickets| && tickets[r.value].token == token
    ensures r.Some? ==> forall i :: 0 <= i < r.value ==> tickets[i].token != token
    ensures r.None? <==> forall i :: 0 <= i < |tickets| ==> tickets[i].token != token
  {
    FindFrom(tickets, token, 0)
  }

  function FindFrom(tickets: seq<Ticket>, token: string, from: nat): (r: Option<nat>)
    requires from <= |tickets|
    requires forall i :: 0 <= i < from ==> tickets[i].token != token
    ensures r.Some? ==> from <= r.value < |tickets| && tickets[r.value].token == token
    ensures r.Some? ==> forall i :: 0 <= i < r.value ==> tickets[i].token != token
    ensures r.None? <==> forall i :: 0 <= i < |tickets| ==> tickets[i].token != token
    decreases |tickets| - from
  {
    if from == |tickets| then None
    else if tickets[from].token == token then Some(from)
    else FindFrom(tickets, token, from + 1)
  }

  predicate IsValidScanOf(s: ScanRecord, ticketId: nat)
  {
    s.ticketId == Some(ticketId) && s.result == Valid
  }

  /** A ticket is consumed once the log holds a `valid` scan for it: derived, never stored. */
  predicate Consumed(scans: seq<ScanRecord>, ticketId: nat)
  {
    exists k :: 0 <= k < |scans| && IsValidScanOf(scans[k], ticketId)
  }

  /** Appending one record consumes a ticket exactly when that record is a valid scan of it. */
  lemma ConsumedAppend(scans: seq<ScanRecord>, rec: ScanRecord, ticketId: nat)
    ensures Consumed(scans + [rec], ticketId) <==> Consumed(scans, ticketId) || IsValidScanOf(rec, ticketId)
  {
    var s := scans + [rec];
    if Consumed(s, ticketId) && !IsValidScanOf(rec, ticketId) {
      var k :| 0 <= k < |s| && IsValidScanOf(s[k], ticketId);
      assert k < |scans| && s[k] == scans[k];
    }
    if Consumed(scans, ticketId) {
      var k :| 0 <= k < |scans| && IsValidScanOf(scans[k], ticketId);
      assert s[k] == scans[k];
    }
    if IsValidScanOf(rec, ticketId) {
      assert s[|scans|] == rec;
    }
  }

  /**
   * `SELECT scanned_at FROM scans WHERE ticket_id = ? AND result = 'valid'
   * ORDER BY scanned_at ASC LIMIT 1`: the earliest valid-scan time, if any.
   */
  function FirstValidScan(scans: seq<ScanRecord>, ticketId: nat): (r: Option<nat>)
    ensures r.None? <==> !Consumed(scans, ticketId)
    ensures r.Some? ==> exists k :: 0 <= k < |scans| && IsValidScanOf(scans[k], ticketId) && scans[k].scannedAt == r.value
    ensures r.Some? ==> forall k :: 0 <= k < |scans| && IsValidScanOf(scans[k], ticketId) ==> r.value <= scans[k].scannedAt
  {
    if |scans| == 0 then None
    else
      var rest := FirstValidScan(scans[1..], ticketId);
      assert forall k :: 1 <= k < |scans| ==> scans[k] == scans[1..][k - 1];
      if IsValidScanOf(scans[0], ticketId) then
        match rest
        case None => Some(scans[0].scannedAt)
        case Some(t) => Some(Min(scans[0].scannedAt, t))
      else
        assert forall k :: 0 <= k < |scans[1..]| ==> scans[1..][k] == scans[k + 1];
        rest
  }

  /** The number of `valid` scans of a ticket. */
  function CountValid(scans: seq<ScanRecord>, ticketId: nat): nat
  {
    if |scans| == 0 then 0
    else CountValid(scans[..|scans| - 1], ticketId) + (if IsValidScanOf(scans[|scans| - 1], ticketId) then 1 else 0)
  }

  // ----- The store invariant -----

  /** AUTOINCREMENT ids with no deletions. */
  predicate TicketIds(tickets: seq<Ticket>)
  {
    forall i :: 0 <= i < |tickets| ==> tickets[i].id == i + 1
  }

  /** `token TEXT UNIQUE`. */
  predicate UniqueTokens(tickets: seq<Ticket>)
  {
    forall i, j :: 0 <= i < j < |tickets| ==> tickets[i].token != tickets[j].token
  }

  /** `created_at` readings follow insertion order. */
  predicate CreatedInOrder(tickets: seq<Ticket>)
  {
    forall i, j :: 0 <= i < j < |tickets| ==> tickets[i].createdAt <= tickets[j].createdAt
  }

  /** `created_at` readings never run ahead of the clock and follow insertion order. */
  predicate TicketTimes(tickets: seq<Ticket>, clock: nat)
  {
    && (forall i :: 0 <= i < |tickets| ==> tickets[i].createdAt <= clock)
    && CreatedInOrder(tickets)
  }

  predicate ScanIds(scans: seq<ScanRecord>)
  {
    forall k :: 0 <= k < |scans| ==> scans[k].id == k + 1
  }

  predicate ScanTimes(scans: seq<ScanRecord>, clock: nat)
  {
    && (forall k :: 0 <= k < |scans| ==> scans[k].scannedAt <= clock)
    && (forall j, k :: 0 <= j < k < |scans| ==> scans[j].scannedAt <= scans[k].scannedAt)
  }

  /**
   * `ticket_id REFERENCES tickets(id)`: a present ticket id names an existing
   * ticket, and the raw token is then that ticket's token; a NULL ticket id is
   * an `invalid` attempt whose raw token is cut to 64 characters.
   */
  predicate ScanRefs(tickets: seq<Ticket>, scans: seq<ScanRecord>)
  {
    forall k :: 0 <= k < |scans| ==>
      match scans[k].ticketId
      case Some(id) => 1 <= id <= |tickets| && scans[k].rawToken == tickets[id - 1].token
      case None => scans[k].result == Invalid && |scans[k].rawToken| <= MaxUnresolvedTokenLength
  }

  /** At-most-once admission: no two `valid` scans name the same ticket. */
  predicate SingleAdmission(scans: seq<ScanRecord>)
  {
    forall j, k :: 0 <= j < k < |scans| && scans[j].result == Valid && scans[k].result == Valid ==>
      scans[j].ticketId != scans[k].ticketId
  }

  predicate WellFormed(st: Store)
  {
    && TicketIds(st.tickets)
    && UniqueTokens(st.tickets)
    && TicketTimes(st.tickets, st.clock)
    && ScanIds(st.scans)
    && ScanTimes(st.scans, st.clock)
    && ScanRefs(st.tickets, st.scans)
    && SingleAdmission(st.scans)
  }

  lemma EmptyStoreWellFormed()
    ensures WellFormed(EmptyStore())
  {
  }

  lemma AdvanceWellFormed(st: Store, elapsed: nat)
    requires WellFormed(st)
    ensures WellFormed(Advance(st, elapsed))
  {
  }

  lemma {:induction false} CountValidZero(scans: seq<ScanRecord>, ticketId: nat)
    ensures CountValid(scans, ticketId) == 0 <==> !Consumed(scans, ticketId)
    decreases |scans|
  {
    if |scans| > 0 {
      var init := scans[..|scans| - 1];
      CountValidZero(init, ticketId);
      assert forall k :: 0 <= k < |init| ==> init[k] == scans[k];
      if Consumed(scans, ticketId) && !IsValidScanOf(scans[|scans| - 1], ticketId) {
        var k :| 0 <= k < |scans| && IsValidScanOf(scans[k], ticketId);
        assert Consumed(init, ticketId) by { assert IsValidScanOf(init[k], ticketId); }
      }
    }
  }

  /** The log never holds two `valid` scans of one ticket. */
  lemma {:induction false} AtMostOnce(scans: seq<ScanRecord>, ticketId: nat)
    requires SingleAdmission(scans)
    ensures CountValid(scans, ticketId) <= 1
    ensures CountValid(scans, ticketId) == 1 <==> Consumed(scans, ticketId)
    decreases |scans|
  {
    CountValidZero(scans, ticketId);
    if |scans| > 0 {
      var n := |scans| - 1;
      var init := scans[..n];
      assert forall k :: 0 <= k < |init| ==> init[k] == scans[k];
      AtMostOnce(init, ticketId);
      if IsValidScanOf(scans[n], ticketId) {
        CountValidZero(init, ticketId);
      }
    }
  }
}

=== FILE: sql_like.dfy ===
/**
 * SQLite's `LIKE` operator with its defaults: no ESCAPE clause, `%` matches any
 * run of characters, `_` matches exactly one, and letters compare without regard
 * to case for ASCII only.
 */
module SqlLike {

  /** ASCII upper-case letters fold to lower case; every other character is itself. */
  function FoldAscii(c: char): char
  {
    if 'A' <= c <= 'Z' then (c as int + 32) as char else c
  }

  /** `s LIKE pattern`. */
  function Like(pattern: string, s: string): (r: bool)
    ensures '%' !in pattern ==> (r <==> |s| == |pattern| && LikePrefix(pattern, s))
    decreases |pattern| + |s|
  {
    if |pattern| == 0 then |s| == 0
    else if pattern[0] == '%' then Like(pattern[1..], s) || (|s| > 0 && Like(pattern, s[1..]))
    else if |s| == 0 then false
    else if pattern[0] == '_' then Like(pattern[1..], s[1..])
    else FoldAscii(pattern[0]) == FoldAscii(s[0]) && Like(pattern[1..], s[1..])
  }

  /**
   * Reference definition of what `token LIKE q || '%'` selects when `q` holds no
   * `%`: the token is at least as long as `q`, and position by position `q` holds
   * `_` or the same letter up to ASCII case.
   */
  predicate LikePrefix(q: string, s: string)
  {
    && |q| <= |s|
    && forall i :: 0 <= i < |q| ==> q[i] == '_' || FoldAscii(q[i]) == FoldAscii(s[i])
  }

  lemma {:induction false} TrailingPercentMatchesAll(s: string)
    ensures Like("%", s)
    decreases |s|
  {
    if |s| > 0 {
      TrailingPercentMatchesAll(s[1..]);
    }
  }

  /** `token LIKE q%` is the case-insensitive prefix test with `_` as a wildcard. */
  lemma {:induction false} LikePrefixPattern(q: string, s: string)
    requires '%' !in q
    ensures Like(q + "%", s) <==> LikePrefix(q, s)
    decreases |q|
  {
    if |q| == 0 {
      assert q + "%" == "%";
      TrailingPercentMatchesAll(s);
    } else {
      assert (q + "%")[1..] == q[1..] + "%";
      assert '%' !in q[1..] by {
        forall i | 0 <= i < |q[1..]| ensures q[1..][i] != '%' {
          assert q[1..][i] == q[i + 1];
        }
      }
      if |s| > 0 {
        LikePrefixPattern(q[1..], s[1..]);
        if LikePrefix(q[1..], s[1..]) && (q[0] == '_' || FoldAscii(q[0]) == FoldAscii(s[0])) {
          forall i | 0 <= i < |q| ensures q[i] == '_' || FoldAscii(q[i]) == FoldAscii(s[i]) {
            if i > 0 {
              assert q[1..][i - 1] == q[i] && s[1..][i - 1] == s[i];
            }
          }
        }
        if LikePrefix(q, s) {
          forall i | 0 <= i < |q[1..]| ensures q[1..][i] == '_' || FoldAscii(q[1..][i]) == FoldAscii(s[1..][i]) {
            assert q[1..][i] == q[i + 1] && s[1..][i] == s[i + 1];
          }
        }
      }
    }
  }

  /** A pattern with no wildcard selects every token that starts with it. */
  lemma ExactPrefixMatches(q: string, rest: string)
    requires '%' !in q
    ensures Like(q + "%", q + rest)
  {
    LikePrefixPattern(q, q + rest);
    assert forall i :: 0 <= i < |q| ==> (q + rest)[i] == q[i];
  }
}

=== FILE: wrappers.dfy ===
/** Optional values: SQL NULL, a missing request field, JavaScript `null`/`undefined`. */
module Wrappers {

  datatype Option<+T> = None | Some(value: T) {

    /** Returns the value in Some or a default value if None. */
    function GetOr(default: T): T
    {
      match this
      case Some(v) => v
      case None => default
    }
  }

  function Min(a: int, b: int): int
  {
    if a <= b then a else b
  }

  function Max(a: int, b: int): int
  {
    if a >= b then a else b
  }
}
